=== FILE: README.md ===
# SPI SRAM emulator: dispatcher model

A Dafny model of the command dispatcher of an RP2040 SPI-slave SRAM
emulator. Core 1 runs a loop that does the following for each bus
transaction:

- pops the command the read PIO state machine shifted in;
- decodes it as READ, FAST_READ, WRITE or anything else;
- hands the address to a DMA channel that streams `emu_ram` bytes out
  (read) or FIFO bytes in (write);
- busy-waits for chip-select to rise;
- aborts the channel and rearms both PIO state machines.

The model treats this as a pure state machine with one step per
transaction. The state is a 64 KiB `seq<bv8>`, the read FIFO as a queue of
words, the two shifters, the read PIO's instruction memory, and the
write-side register fields FAST_READ patches.

Two dispatchers are modelled:

- `sram.c`: the current dispatcher, in modules `Dispatcher`, `Refinement`
  and `Properties`. It has three opcodes scaled by the build's address
  width, a glitch-filtered deselect, the tx2 hand-off channel for READ, and
  FAST_READ's patch and revert of the write program and two register fields.
  `Dispatcher.Config.abortsHandOff` selects the code as written (false) or a
  corrected build that also aborts tx2 after a READ (true); see Findings.
- `main.cpp`: the earlier 16-bit dispatcher, in module `Legacy`. It
  assembles the address as `hi << 8 + lo` and waits with a plain
  wait-while-low. Its test program is in module `Harness`: the RAM fill,
  the 11-byte frames, the address choice and the two check loops.

Both dispatchers are proved against one reference, `SramChip.Serve`. This is
what an SPI SRAM does with a read, a write or anything else. From the clean
top of the loop (`Dispatcher.Ready`, and `Legacy.LegacyReady` for
`main.cpp`) an iteration is served exactly when the transaction carries a
whole request that fits in the array and the deselect wait breaks on the
real rise of chip-select. When it is served, `emu_ram` and the MISO bytes
are the chip's. A run of such iterations is the chip run over the same
requests (`Refinement.RunRefinesChip`). After a READ deselected before its
address, `sram.c` is no longer at the clean top of the loop: its next
iteration loses its first word (see Findings).

A transaction records the polls the deselect wait reads and the index of
the first poll after chip-select really rose. A wait that breaks before that
index broke on a glitch: the dispatcher aborts its channel and rearms while
the master is still clocking. The model ends such an iteration as
`CutShort`. `sram.c`'s wait needs two high polls in a row, so isolated high
polls never cut an iteration short. `main.cpp`'s plain wait breaks on a
single high poll (see Findings).

The model holds only the 64 KiB `emu_ram`. Neither dispatcher bounds its
DMA transfers against it: a read or write that runs past the end of the
array goes on reading or overwriting the memory that follows. What the
firmware then does depends on that memory; the model ends such an
iteration as `PastRam`. In a 24-bit build an
address such as 0x123456 already lies beyond the array.

A transaction deselected before its address is complete does not leave the
dispatcher clean. WRITE and FAST_READ stay blocked on the address pop, so
the next transaction's first words become the address. READ completes, but
leaves tx2 armed (see Findings).

Modules:

- `Base`: shared vocabulary. `Option`, the array size, byte views of FIFO
  words, the uint8_t store.
- `ChipSelect`: `wait_for_cs_high` (two consecutive high samples) and the
  older plain wait.
- `Opcodes`: the scaled opcodes and the dispatch chain.
- `Pio`: shifter state, the disable/clear/restart/jmp/enable sequence, and
  instruction pokes.
- `Registers`: the DATA_SIZE and PULL_THRESH fields and FAST_READ's
  patch/revert.
- `Dma`: the rx channel's byte stores and the tx channel's byte stream.
- `SramChip`: the reference SPI SRAM both dispatchers are proved against.
  `Serve` reads a slice, writes a splice or does nothing; `WriteStoresRun`
  and `WriteThenRead` state what a write leaves behind.
- `Bus`: what a transaction presents, and the ways an iteration can end.
- `Dispatcher`, `Refinement`, `Properties`, `StrandedHandOff`: `sram.c`.
- `Legacy`, `Harness`: `main.cpp`.

Inputs the code gets from outside are parameters of the model:

- the chip-select samples the busy-wait reads;
- the words the read program pushes;
- the number of bytes the master clocks out;
- where each PIO program stopped when chip-select rose;
- the instruction memories and register defaults after program load;
- the values `rand()` returns.

## Model

| member | source | states |
|---|---|---|
| ChipSelect.PollFrom | sram.c:98-107 | polling from sample k ends right after the first pair of consecutive high samples at or after k; if no such pair exists it never ends |
| ChipSelect.WaitForCsHigh | sram.c:98-107 | the wait ends iff some two consecutive samples are high; it ends right after the first such pair, and no earlier pair exists |
| ChipSelect.DeselectIsFirstStableHigh | sram.c:98-107 | the wait ends after sample i+1 iff samples i and i+1 are the first stable-high pair |
| ChipSelect.SamePairsSameWait | sram.c:98-107 | two sample streams with the same stable-high pairs end the wait at the same point |
| ChipSelect.IsolatedHighIgnored | sram.c:100-104 | a single high sample between lows is a glitch: clearing it does not change when, or whether, the wait ends |
| ChipSelect.WaitWhileLowFrom | main.cpp:96 | the older wait ends right after the first high sample, and never if every sample is low |
| ChipSelect.FilterOnlyDelays | sram.c:98-107 | whenever the filtered wait ends, the plain wait has already ended, strictly earlier |
| ChipSelect.GlitchEndsOnlyUnfilteredWait | sram.c:102 | on a low-high-low glitch the plain wait ends but the filtered wait does not |
| ChipSelect.FilterWaitsForRise | sram.c:98-107 | when no two consecutive polls before the real rise read high, the filtered wait either keeps waiting or breaks at or after the rise |
| ChipSelect.GlitchCutsPlainWaitShort | main.cpp:96 | on polls low, high, low, low, high, high with the rise at poll 4, the plain wait breaks at the glitch, before the rise, while the filtered wait breaks after it |
| Opcodes.ScaledValue | sram.c:16-19 | shifting an opcode byte by ADDR_BITS-16 loses no bit and stays below 0x10000 |
| Opcodes.OpcodesDistinct | sram.c:17-19 | for every width from 16 to 24 the three command words are pairwise distinct |
| Opcodes.OpcodeValues | sram.c:17-19 | the opcodes of the default 16-bit build are 0x03, 0x0B and 0x02; the 24-bit ones are 0x300, 0xB00 and 0x200 |
| Opcodes.Classify | sram.c:113-159 | each branch is taken iff the command equals its opcode; every other word goes to the ignore branch |
| Pio.Rearm | sram.c:160-164 | disable, clear, restart, jmp to the entry, enable: the shifter is enabled at its entry with an empty FIFO and no half-shifted bits, whatever its state before |
| Pio.Poke | sram.c:36-37 | writing one instruction slot changes that slot and no other |
| Registers.SetTransferSize32 | sram.c:66-67 | the tx channel's control word gets DATA_SIZE 32-bit, and every other bit is kept |
| Registers.NarrowTx | sram.c:127 | clearing DATA_SIZE gives an 8-bit transfer size, and every other bit is kept |
| Registers.WidenTx | sram.c:142 | OR-ing in 2 at the DATA_SIZE position sets bit 1 of the field, and every other bit is kept |
| Registers.PullEight | sram.c:128 | OR-ing in 8 at PULL_THRESH gives a threshold with bit 3 set, and every other bit is kept |
| Registers.PullDefault | sram.c:143 | clearing PULL_THRESH gives threshold 0 (32 bits), and every other bit is kept |
| Registers.DataSizeRoundTrip | sram.c:127-142 | clearing then re-setting DATA_SIZE restores the control word iff the field was 32-bit |
| Registers.PullThreshRoundTrip | sram.c:128-143 | setting 8 then clearing PULL_THRESH restores SHIFTCTRL iff the field was 0 |
| Registers.PatchedThresholdIsEight | sram.c:128 | the patch gives an 8-bit pull threshold iff the field held 0 or 8 |
| Registers.FastReadPatch | sram.c:124-128 | loop end jumps to the fast-read slot, other instructions are unchanged, the transfer size is 8 bits, and from the normal settings the pull threshold is 8 |
| Registers.FastReadUnpatch | sram.c:139-143 | from an 8-bit transfer size the write side is back in its normal configuration: jmp_pin(addr_two) at the loop end, 32-bit transfers, threshold 0 |
| Registers.FastReadRoundTrip | sram.c:124-143 | patch followed by revert gives back the exact write-side state iff it started in the normal configuration |
| Dma.RxTransfers | sram.c:41-59 | the 8-bit rx channel stores the low byte of the k-th FIFO word at dst+k for k below min(FIFO, count); the model follows it iff that run fits the array; every other byte and the array size are kept; the leftover words are those not consumed |
| Dma.TxStream | sram.c:61-80 | the tx channel streams mem[src], mem[src+1], ... for n bytes; the model follows it iff that run fits the array |
| Dispatcher.Setup | sram.c:25-39 | the loop starts with both machines armed, channels idle and the write side configured; for widths other than 16, instruction 1 of each program becomes set x with ADDR_BITS-9 (read) or ADDR_BITS+6 (write), both fitting the 5-bit field; no other instruction changes |
| Dispatcher.ResetPipelines | sram.c:160-169 | the write machine is rearmed at slot 0 and the read machine at pio_read_offset; nothing else changes |
| Dispatcher.HandOff | sram.c:82-95 | tx2's one transfer moves the next read-FIFO word into the tx channel's trigger, starting it there, and uses up tx2; nothing else changes |
| Dispatcher.ReadBranch | sram.c:113-120 | a served READ leaves everything as it was on entry except that the read machine is rearmed and the tx channel stopped; tx2 is left waiting iff no address word arrived and the build does not abort it; with no address word the READ drives nothing and is served iff the wait sees the real rise |
| Dispatcher.FastReadBranch | sram.c:121-144 | a served FAST_READ leaves everything as it was on entry, including the patched write side, except that the read machine is rearmed and the tx channel stopped |
| Dispatcher.WriteBranch | sram.c:145-155 | a served WRITE changes only emu_ram (keeping its size), rearms the read machine, leaves the tx channel alone, and drives nothing |
| Dispatcher.IgnoreBranch | sram.c:156-159 | a served unknown command changes nothing but the read machine's rearm and drives nothing; it is cut short only when the wait breaks before the real rise |
| Dispatcher.Dispatch | sram.c:112-159 | after the command pop, a served iteration returns to the top of the loop; only WRITE changes emu_ram; WRITE and unknown commands drive nothing and leave tx alone; the read commands stop tx; tx2 is left waiting iff a READ got no address word in a build that does not abort it |
| Dispatcher.Step | sram.c:109-170 | a served iteration had a command and saw the real rise of chip-select and returns to the top of the loop; from the clean top it ends there again with only emu_ram possibly changed, except that a READ deselected before its address leaves tx2 waiting in the build as written and changes nothing else; only WRITE changes emu_ram; WRITE and unknown commands drive nothing |
| Dispatcher.Run | sram.c:111-170 | a run whose iterations are all served ends at the top of the loop with one reply per transaction; in the corrected build a run from the clean top ends clean |
| Refinement.StepServesRequest | sram.c:109-170 | from the clean top of the loop, every iteration is served iff its request is whole, fits the array and the wait sees the real rise; when served, emu_ram and MISO are what the reference chip gives; it leaves the array only for a whole request the chip could not serve there, and is cut short only when the wait breaks before the rise |
| Refinement.ReadServesRequest | sram.c:113-120 | the same for READ, with the address taken from the one word tx2 moves; a READ with no address word is the chip's no-op |
| Refinement.FastReadServesRequest | sram.c:121-136 | the same for FAST_READ, with the address the OR of the two popped words |
| Refinement.WriteServesRequest | sram.c:145-155 | the same for WRITE: the low bytes of the remaining words are written at the OR of the two popped words |
| Refinement.RunRefinesChip | sram.c:111-170 | a run from the clean top of the loop in which no READ strands tx2 ends with the same emu_ram and the same reply for every transaction as the reference chip run over the requests the transactions carry |
| Refinement.ReadStreamIsSlice | sram.c:61-80 | the tx stream succeeds iff the chip's read does, and then yields the same bytes |
| Refinement.WriteRunIsSplice | sram.c:41-59 | the rx stores consume every word and fit iff the chip's write fits, and then give the same memory |
| Properties.UnknownCommandInvisible | sram.c:156-159 | running an unknown command first only puts an empty reply in front of the rest of the run |
| Properties.FastReadMatchesRead | sram.c:113-136 | FAST_READ at the OR of its two words has the same outcome, bytes and next state as READ at that address |
| Properties.WriteThenReadBack | sram.c:113-155 | a WRITE at an address inside the array, then a READ of as many bytes there, returns the written bytes |
| Properties.ReadReturnsStored | sram.c:113-120 | a READ returns the bytes stored at its address and leaves emu_ram unchanged |
| Properties.WriteAboveKeepsLow | sram.c:145-155 | a four-byte WRITE at 0x00FF stores its bytes there, keeps bytes 0-3, and returns to the loop's starting state |
| Properties.FilledStart | main.cpp:130 | the filled array starts 00 01 02 03 |
| Properties.EndToEndScenario | sram.c:109-170 | from the filled array: a WRITE of AA BB CC DD at 0x00FF reads back as AA BB CC DD, and a READ of 4 bytes at 0 then gives 00 01 02 03 |
| Properties.DeselectBeforeAddress | sram.c:113-159 | when chip-select rises right after the command, FAST_READ and WRITE stay blocked on the address pop; READ returns to the loop driving nothing, with tx2 left waiting unless the build aborts it and nothing else changed; an unknown command returns to the loop unchanged |
| Properties.IsolatedGlitchesNeverCutShort | sram.c:98-159 | when no two consecutive polls before the real rise read high, no iteration of the current dispatcher is cut short |
| Properties.WideAddressOutsideArray | sram.c:23 | in the 24-bit build a READ at 0x123456 addresses past the 64 KiB array, where the model stops following it |
| StrandedHandOff.WaitingHandOffTakesFirstWord | sram.c:82-95 | while tx2 is waiting, a transaction is dispatched as if its first word had never been sent, with the tx channel restarted at that word |
| StrandedHandOff.CleanWriteStores | sram.c:145-155 | from the clean top of the loop, a WRITE of AA at 0x0010 stores AA there |
| StrandedHandOff.StrandedReadLosesWrite | sram.c:113-120 | as written, after a READ deselected before its address, the same WRITE of AA at 0x0010 stores nothing and leaves tx running from the write opcode |
| StrandedHandOff.AbortedHandOffRecovers | sram.c:113-120 | with tx2 aborted after deselect, such a READ leaves the emulator exactly as it found it and the next transaction is served as from the clean state |
| Legacy.Address | main.cpp:87-91 | when both popped words are bytes, the offset is hi*256+lo, which lies inside emu_ram |
| Legacy.DisjointLanesAdd | main.cpp:90-91 | hi<<8 and lo do not overlap, so their sum is their OR |
| Legacy.DisjointLanesValue | main.cpp:90-91 | the OR of hi<<8 and lo is the number hi*256+lo |
| Legacy.RearmReader | main.cpp:118-122 | the read machine is rearmed at pio_read_offset and nothing else changes |
| Legacy.LegacyStep | main.cpp:85-123 | a served iteration saw a command and the plain wait saw the real rise, and it returns to the top of the loop; only 0x2 changes emu_ram; 0x3 rearms the write machine and the other commands leave it where the bus stopped it; commands other than 0x3 drive nothing |
| Legacy.LegacyStepServesRequest | main.cpp:85-123 | every iteration is served iff its request is whole, fits the array and the plain wait sees the real rise; when served, emu_ram and MISO are the reference chip's; it leaves the array only for a whole request the chip could not serve there, and is cut short only when the wait breaks on a glitch before the rise |
| Legacy.ByteAddressesStayInRam | main.cpp:87-107 | with byte-wide address words, a read or write whose bytes end inside the array is served whenever the plain wait sees the real rise |
| Legacy.GlitchCutsLegacyReadShort | main.cpp:88-97 | a read of eight bytes at 0x0010 whose polls show one high poll before the real rise is cut short |
| Legacy.LegacyReadReturnsSlice | main.cpp:88-103 | when the plain wait sees the real rise, a read request inside the array returns the bytes at its address and keeps emu_ram |
| Legacy.LegacyWriteSplices | main.cpp:104-113 | when the plain wait sees the real rise, a write request inside the array stores its data at its address and drives nothing |
| Base.ByteOf | main.cpp:130 | the byte built for a value below 256 has that value |
| Base.UInt8 | main.cpp:130 | a store into a uint8_t keeps the value modulo 256 |
| Harness.FillRam | main.cpp:130 | after the fill loop, emu_ram[i] is i mod 256 for every i < 65536 |
| Harness.TestAddress | main.cpp:146-154 | the chosen address leaves room for the whole 11-byte buffer, so addr+8 stays inside the array |
| Harness.EveryTestAddressReachable | main.cpp:154 | every address below 65525 is chosen by some rand() value |
| Harness.Frame | main.cpp:157-159 | the frame has 11 bytes: the command first, then the payload from byte 3 |
| Harness.FrameAddressRoundTrip | main.cpp:157-159 | the dispatcher's hi<<8+lo rebuilds the harness's address from the two header bytes |
| Harness.ReadFrameRequest | main.cpp:157-161 | a read frame at a harness address carries, to the earlier dispatcher, the read of eight bytes at that address |
| Harness.MosiWords | main.cpp:161 | every byte the master sends reaches the FIFO as a word below 256 |
| Harness.LowBytesOfMosiWords | main.cpp:199 | the rx channel's byte view of the pushed words is exactly the bytes sent |
| Harness.ZeroExtendValue | main.cpp:161 | a pushed byte keeps its value as a word |
| Harness.SliceMatches | main.cpp:174-178 | a buffer whose data part is the memory slice at addr passes the check, whatever its header |
| Harness.SpliceMatches | main.cpp:212-216 | after writing a buffer's data part at addr, the check passes and no byte outside the eight moves |
| Harness.CheckData | main.cpp:174-178 | the check loop returns ok iff every data byte equals emu_ram at addr+i |
| Harness.ReadCheckPasses | main.cpp:156-178 | for any harness address and stale payload, once the plain wait sees the real rise the read is served, keeps emu_ram, and in_buf[3..11) equals emu_ram[addr..addr+8) |
| Harness.WriteCheckPasses | main.cpp:190-216 | once the plain wait sees the real rise, the write is served and drives nothing; afterwards emu_ram[addr+i] is sent byte i for i < 8, and every other byte is unchanged |

## Left out

- The PIO programs (sram.pio.h) are not part of this model. Their
  bit-level shifting, FAST_READ's dummy cycle and the program bodies are
  abstracted. A transaction supplies the words the read program pushes and
  where each program stopped, as a `Residue`.
- Dma.TxStream: does not model the 32-bit byte-swapped units of the normal
  read path. The stream is "memory bytes from the address, in order", which
  is what the harness checks.
- Dma.TxStream: does not model the tx channel's 65536-transfer bound. A
  read that stays inside the 64 KiB array never reaches it.
- The address word is taken to be the offset into `emu_ram`. The `.spi_ram`
  section placement and any base-address bits the read program adds are not
  visible.
- An 8-bit DMA read of a FIFO register is taken to deliver the low byte of
  the word.
- Time, clock rates, `spi_init`'s speed sweep, `sleep_ms`, printf
  reporting, and the harness's failure branch that lowers the speed. In
  this untimed model both checks pass, so that branch is not reached; at
  real bus speeds it can be.
- `rand()` is a parameter.
- The two-core concurrency, bus priority, `multicore_launch_core1`, and
  resource claiming. The dispatcher is modelled alone and sequentially.
  main.cpp fills the array before it launches core 1 (main.cpp:130, then
  143). main.c launches core 1 inside `setup_simulated_sram` (sram.c:180)
  and fills afterwards (main.c:69-72), so a transaction arriving during that
  fill would race it.
- Properties.EndToEndScenario: assumes no transaction arrives during
  main.c's fill; it starts from the completed fill.
- `sram.h` pin, state-machine and channel numbers are names only. They
  carry no behaviour.
- `main.c`: the USB CDC/UART bridge, LED timing and TinyUSB callbacks are
  not modelled. Its fill loop (main.c:71) is the same loop as
  main.cpp:130, so `Harness.FillRam` covers it. The watchdog condition
  around it is not modelled.
- `logic.h` has declarations only.
- Legacy.LegacyStep: the bytes a read drives are taken to be the tx stream,
  whatever state an earlier write or unknown command left the write machine
  in. That machine is only rearmed after a read.
- Dma.RxTransfers: is None once a store would fall past the end of the
  array. The channel has no such bound and stores into the memory after
  `emu_ram`, which this model does not hold.
- Dma.TxStream: is None for a read that runs past the array. The channel
  reads on from the memory after it.
- Dispatcher.ReadBranch: ends as `PastRam` for a read past the array; the
  firmware drives the bytes that follow the array and returns to the loop.
- Dispatcher.FastReadBranch: ends as `PastRam` for a read past the array,
  for the same reason.
- Dispatcher.WriteBranch: ends as `PastRam` for a write past the array; the
  firmware stores the in-array part, overwrites the memory after it and
  returns to the loop.
- Dispatcher.Step: ends as `PastRam` for transfers past the array, as the
  branches do, so what such a transaction leaves in memory is not stated.
- Dispatcher.Step: a FAST_READ or WRITE deselected before its address is
  complete stays blocked on the pop, and the next transaction's first words
  then become its address. The model stops at the block.
- Dispatcher.Step: while tx2 is waiting, the first word of the next
  transaction is taken to reach tx2 before the CPU's pop. In hardware the
  DMA request and the CPU's polling loop race for that word.
- Dispatcher.ReadBranch: when a stray hand-off left the tx channel running,
  the words it pushed into the write FIFO before this READ are not
  modelled. The bytes driven are the stream from the new address.
- Dispatcher.WriteBranch: bytes a still-running tx channel makes the write
  machine drive are not modelled; the branch drives nothing.
- Dispatcher.IgnoreBranch: promises that nothing is driven even when a
  stray hand-off left the tx channel running. sram.c:156-159 does not abort
  it, so it keeps feeding the write machine; those bytes are not modelled.
- Dispatcher.Dispatch: the same gap for unknown commands and WRITE with a
  stray tx channel running.
- Dispatcher.Step: an iteration cut short by a glitch ends as `CutShort`.
  What the master's remaining clocks then do to the rearmed machines is not
  modelled.
- Legacy.LegacyStep: the same for `CutShort`. main.cpp's WRITE drain also
  ends as soon as the FIFO is momentarily empty, so later data bytes are
  never stored; the model does not follow that.
- Dispatcher.Setup: its requires are what the write program's load and init
  must leave: jmp_pin(addr_two) at the loop end, a PULL_THRESH field of 0,
  and, in wide builds, a loop end other than slot 1. sram.pio.h and the
  init functions are not part of this model, so these are assumed.
- Refinement.StepServesRequest: says only that a transfer past the array is
  not served. What the firmware then does to memory beyond `emu_ram` is not
  stated.
- Refinement.ReadServesRequest: the same gap for a READ past the array.
- Refinement.FastReadServesRequest: the same gap for a FAST_READ past the
  array.
- Refinement.WriteServesRequest: the same gap for a WRITE past the array.
- Legacy.LegacyStep: ends as `PastRam` for a read or write that runs past
  the array; main.cpp's channels carry on there too.
- Legacy.LegacyStepServesRequest: the same gap as
  Refinement.StepServesRequest.
- Properties.WideAddressOutsideArray: proves only that the model stops at
  0x123456. The bytes the firmware drives from beyond `emu_ram` are not
  modelled.

## Findings

| source | as written | input that shows it | evidently intended | confidence | as-written member | corrected member |
|---|---|---|---|---|---|---|
| sram.c:113-120 | READ starts tx2, waits for deselect and aborts only the tx channel, so tx2 stays armed when no address word arrived | a READ command deselected before its address, then a WRITE of AA at 0x0010: tx2 takes the write opcode, 0x0000 is decoded as an unknown command, and nothing is stored | each iteration returns with no DMA channel armed, so the next transaction is decoded from its first word | medium, not executed | StrandedHandOff.StrandedReadLosesWrite | StrandedHandOff.AbortedHandOffRecovers |
| main.cpp:96 | the deselect wait spins only while chip-select reads low, so one high poll while the master is still clocking ends it, and the read channel is aborted mid-transfer | a read of eight bytes at 0x0010 with polls low, high, low, low, high, high and the real rise at poll 4 | the wait breaks only on the real rise, as the two-poll filter of sram.c:98-107 does | medium, not executed | Legacy.GlitchCutsLegacyReadShort | Properties.IsolatedGlitchesNeverCutShort |

The first row's corrected build is `Dispatcher.Config.abortsHandOff`. The
second row's correction is the later dispatcher's filtered wait. The rest
of the model holds in both builds of `sram.c`: `Refinement` and `Properties`
start from the clean top of the loop. Only the corrected build stays clean
over a whole run (`Dispatcher.Run`).

=== FILE: base.dfy ===
/** Vocabulary shared by every part of the model: the optional-value wrapper,
    the size of the emulated array, its power-on fill pattern and the byte view
    of a FIFO word. */
module Base {

  /** Number of bytes in emu_ram. */
  const RamSize: nat := 65536

  datatype Option<+T> = None | Some(value: T)

  /** The byte an 8-bit DMA read of a 32-bit FIFO register delivers: the least
      significant byte lane of the word. */
  function LowByte(w: bv32): bv8
  {
    (w & 0xFF) as bv8
  }

  /** The low bytes of a run of FIFO words, in order. */
  function LowBytes(ws: seq<bv32>): seq<bv8>
  {
    seq(|ws|, i requires 0 <= i < |ws| => LowByte(ws[i]))
  }

  /** The offset into emu_ram an address word designates. */
  function Offset(a: bv32): nat
  {
    a as nat
  }

  /** The byte whose value is n, built up one increment at a time. */
  function ByteOf(n: nat): (b: bv8)
    requires n < 256
    ensures b as nat == n
  {
    if n == 0 then 0 else ByteOf(n - 1) + 1
  }

  /** A store of a non-negative int into a uint8_t: the value modulo 256. */
  function UInt8(n: nat): (b: bv8)
    ensures b as nat == n % 256
  {
    ByteOf(n % 256)
  }

  /** The value the start-up loop stores at offset i: the index itself,
      narrowed to a uint8_t. */
  function FillByte(i: nat): bv8
  {
    UInt8(i)
  }

  function Min(a: nat, b: nat): nat
  {
    if a <= b then a else b
  }
}

=== FILE: bus.dfy ===
/** What one bus transaction presents to a dispatcher, and how a dispatch
    iteration can end. */
module Bus {
  import opened ChipSelect
  import opened Pio

  /** One transaction, from chip-select falling to chip-select rising:
      - words: every word the read program pushes into its FIFO (the command,
        the address words, and for a write the data bytes), in order;
      - readLen: the number of data bytes the master clocks out after the
        header of a read;
      - cs: the chip-select samples the dispatcher reads once it polls for
        deselect;
      - rise: the first poll taken after chip-select really rose, when the
        master ended the transaction; a high poll before it is a glitch;
      - readEnd, writeEnd: where the two programs stopped when chip-select
        rose;
      - txLeft: words the tx side had queued that were never clocked out. */
  datatype Transaction = Transaction(
    words: seq<bv32>,
    readLen: nat,
    cs: seq<bool>,
    rise: nat,
    readEnd: Residue,
    writeEnd: Residue,
    txLeft: seq<bv32>)

  /** Why a dispatch iteration does not return to the top of its loop: the
      transaction ends with the dispatcher still waiting. */
  datatype Stall =
      /** No word arrived: still blocked on the command pop. */
    | AwaitingCommand
      /** Blocked on an address pop; the next transaction's first words would
          become the address. */
    | AwaitingAddress
      /** The samples end before the deselect wait breaks. */
    | NoDeselect
      /** The rx channel used up its transfer count with words still queued,
          so the FIFO-empty spin never ends. */
    | DrainNeverEnds

  /** wait_for_cs_high on this transaction's polls breaks on the real rise. */
  predicate FilteredSeesRise(t: Transaction)
  {
    SeesRise(WaitForCsHigh(t.cs), t.rise)
  }

  /** The earlier dispatcher's plain wait breaks on the real rise. */
  predicate PlainSeesRise(t: Transaction)
  {
    SeesRise(WaitWhileLow(t.cs), t.rise)
  }

  /** How a dispatch iteration ends on one transaction: served, with the next
      state and the bytes driven on MISO; stalled inside the iteration; past
      emu_ram, where a DMA transfer would read or store memory beyond the end
      of the array; or cut short, when the deselect wait broke on a glitch
      and the dispatcher aborted its channel and rearmed while the master was
      still clocking. The model does not follow either of the last two: past
      the array what happens depends on the memory that follows, and after a
      cut-short wait the dispatcher is out of step with the master. */
  datatype Outcome<S> =
    | Served(next: S, miso: seq<bv8>)
    | Stalled(why: Stall)
    | PastRam
    | CutShort
}

=== FILE: chip_select.dfy ===
/** The deselect detector of the dispatcher. The select line is active low; the
    dispatcher polls it and must not take a one-sample glitch for the end of a
    transaction. A run of polls is a sequence of samples, `true` meaning high. */
module ChipSelect {
  import opened Base

  /** Samples i and i + 1 both read the line high. */
  predicate StableHighAt(s: seq<bool>, i: int)
  {
    0 <= i && i + 1 < |s| && s[i] && s[i + 1]
  }

  /** The loop of wait_for_cs_high entered at sample k: a low sample starts the
      next iteration; a high one is followed by a second read, and only a second
      high read breaks out. Returns the number of samples consumed when it
      breaks, or None when the samples run out first (the master is still
      holding the chip selected). */
  function PollFrom(s: seq<bool>, k: nat): (r: Option<nat>)
    requires k <= |s|
    ensures r.Some? ==> k + 2 <= r.value <= |s| && StableHighAt(s, r.value - 2)
    ensures r.Some? ==> forall j :: k <= j < r.value - 2 ==> !StableHighAt(s, j)
    ensures r.None? ==> forall j :: k <= j ==> !StableHighAt(s, j)
    decreases |s| - k
  {
    if k == |s| then None
    else if !s[k] then PollFrom(s, k + 1)
    else if k + 1 == |s| then None
    else if s[k + 1] then Some(k + 2)
    else PollFrom(s, k + 2)
  }

  /** wait_for_cs_high: returns the number of samples read before the loop
      breaks. It breaks exactly after the first pair of consecutive high
      samples, and never while no such pair has been seen. */
  function WaitForCsHigh(s: seq<bool>): (r: Option<nat>)
    ensures r.Some? <==> exists i :: StableHighAt(s, i)
    ensures r.Some? ==> 2 <= r.value <= |s| && StableHighAt(s, r.value - 2)
    ensures r.Some? ==> forall j :: 0 <= j < r.value - 2 ==> !StableHighAt(s, j)
  {
    PollFrom(s, 0)
  }

  /** The wait ends after sample i + 1 exactly when samples i and i + 1 form the
      first high pair. */
  lemma DeselectIsFirstStableHigh(s: seq<bool>, i: nat)
    ensures WaitForCsHigh(s) == Some(i + 2)
        <==> StableHighAt(s, i) && forall j :: 0 <= j < i ==> !StableHighAt(s, j)
  {
  }

  /** Two sample runs with the same high pairs end the wait identically. */
  lemma SamePairsSameWait(s: seq<bool>, t: seq<bool>)
    requires forall j :: StableHighAt(s, j) <==> StableHighAt(t, j)
    ensures WaitForCsHigh(s) == WaitForCsHigh(t)
  {
  }

  /** Glitch immunity: a single high sample between low ones (or at either end
      of the run) never ends the wait; the wait behaves as if that sample had
      read low. */
  lemma IsolatedHighIgnored(s: seq<bool>, i: nat)
    requires i < |s| && s[i]
    requires i == 0 || !s[i - 1]
    requires i + 1 == |s| || !s[i + 1]
    ensures WaitForCsHigh(s[i := false]) == WaitForCsHigh(s)
  {
    var t := s[i := false];
    forall j
      ensures StableHighAt(s, j) <==> StableHighAt(t, j)
    {
      if StableHighAt(s, j) {
        assert j != i && j + 1 != i;
      }
    }
    SamePairsSameWait(s, t);
  }

  /** The polling loop of the earlier dispatcher entered at sample k: it
      spins while the line reads low, stops at the first high sample and
      returns the number of samples consumed. */
  function WaitWhileLowFrom(s: seq<bool>, k: nat): (r: Option<nat>)
    requires k <= |s|
    ensures r.Some? ==> k < r.value <= |s| && s[r.value - 1]
    ensures r.Some? ==> forall j :: k <= j < r.value - 1 ==> !s[j]
    ensures r.None? ==> forall j :: k <= j < |s| ==> !s[j]
    decreases |s| - k
  {
    if k == |s| then None
    else if s[k] then Some(k + 1)
    else WaitWhileLowFrom(s, k + 1)
  }

  function WaitWhileLow(s: seq<bool>): Option<nat>
  {
    WaitWhileLowFrom(s, 0)
  }

  /** The glitch filter only ever delays the end of the wait: whenever the
      filtered wait ends, the unfiltered loop would already have stopped at an
      earlier sample. */
  lemma FilterOnlyDelays(s: seq<bool>)
    ensures WaitForCsHigh(s).Some? ==> WaitWhileLow(s).Some?
    ensures WaitForCsHigh(s).Some? ==> WaitWhileLow(s).value < WaitForCsHigh(s).value
  {
  }

  /** A one-sample glitch ends the earlier dispatcher's wait but not the
      filtered one. */
  lemma GlitchEndsOnlyUnfilteredWait()
    ensures WaitWhileLow([false, true, false]) == Some(2)
    ensures WaitForCsHigh([false, true, false]) == None
  {
    var s := [false, true, false];
    assert !StableHighAt(s, 0) && !StableHighAt(s, 1);
    assert forall j :: !StableHighAt(s, j);
  }

  /** A wait that consumed `w` samples saw the real rise of chip-select, the
      first poll after which has index `rise`: its last sample is that poll or
      a later one. A wait that breaks earlier broke on a glitch, while the
      master was still clocking. */
  predicate SeesRise(w: Option<nat>, rise: nat)
  {
    w.Some? && rise < w.value
  }

  /** The filter never breaks early on isolated highs: as long as no two
      consecutive polls before the rise read high, wait_for_cs_high either
      keeps waiting or sees the rise. */
  lemma FilterWaitsForRise(s: seq<bool>, rise: nat)
    requires forall j :: 0 <= j && j + 1 < rise ==> !StableHighAt(s, j)
    ensures WaitForCsHigh(s).Some? ==> SeesRise(WaitForCsHigh(s), rise)
  {
    if WaitForCsHigh(s).Some? {
      var v := WaitForCsHigh(s).value;
      assert StableHighAt(s, v - 2);
    }
  }

  /** The earlier dispatcher's plain wait breaks on one high poll before the
      rise, while the filtered wait on the same polls sees the rise. */
  lemma GlitchCutsPlainWaitShort()
    ensures WaitWhileLow([false, true, false, false, true, true]) == Some(2)
    ensures !SeesRise(WaitWhileLow([false, true, false, false, true, true]), 4)
    ensures WaitForCsHigh([false, true, false, false, true, true]) == Some(6)
    ensures SeesRise(WaitForCsHigh([false, true, false, false, true, true]), 4)
  {
    var s := [false, true, false, false, true, true];
    assert !StableHighAt(s, 0) && !StableHighAt(s, 1) && !StableHighAt(s, 2) && !StableHighAt(s, 3);
    assert StableHighAt(s, 4);
    DeselectIsFirstStableHigh(s, 4);
  }
}

=== FILE: dispatcher.dfy ===
/** The current dispatcher (sram.c): setup of the two state machines and three
    DMA channels, and one iteration of the core-1 loop per bus transaction. */
module Dispatcher {
  import opened Base
  import opened ChipSelect
  import opened Opcodes
  import opened Pio
  import opened Registers
  import opened Dma
  import opened SramChip
  import opened Bus

  /** pio_write_offset: the write program must sit at slot 0. */
  const WriteOffset: nat := 0

  /** A build: the address width, the slot pio_add_program chose for the read
      program, the labels of the assembled write program, and whether the
      READ branch aborts the hand-off channel tx2 once chip-select rises.
      sram.c as written does not (abortsHandOff false); the corrected build
      does. */
  datatype Config = Config(addrBits: nat, readOffset: nat, labels: Labels, abortsHandOff: bool)

  predicate ValidConfig(cfg: Config)
  {
    && ValidAddrBits(cfg.addrBits)
    && cfg.readOffset + 1 < InstrSlots
    && cfg.labels.loopEnd < InstrSlots
  }

  /** The emulator as the dispatcher sees it: emu_ram, the read and write
      state machines, the read PIO's instruction memory, the write-side
      settings FAST_READ rewrites, the rx and tx data channels, and whether the
      hand-off channel tx2 has been started and not yet made its transfer. */
  datatype Emu = Emu(
    mem: seq<bv8>,
    readSm: Shifter,
    writeSm: Shifter,
    readInstr: seq<Instr>,
    side: WriteSide,
    rx: Chan,
    tx: Chan,
    handOffStarted: bool)

  /** The top of the loop, before the command pop: both state machines armed
      at their entry offsets with empty FIFOs, the write side in its normal
      configuration and the rx channel stopped. The tx channel may still be
      running and tx2 may still be waiting for a word, when an earlier READ
      left them so. */
  predicate LoopTop(cfg: Config, e: Emu)
  {
    && |e.mem| == RamSize
    && e.readSm == Armed(cfg.readOffset)
    && e.writeSm == Armed(WriteOffset)
    && |e.readInstr| == InstrSlots
    && Configured(e.side, cfg.labels)
    && e.rx == Idle
  }

  /** The clean top of the loop: no channel running and tx2 not waiting. */
  predicate Ready(cfg: Config, e: Emu)
  {
    && LoopTop(cfg, e)
    && e.tx == Idle
    && !e.handOffStarted
  }

  /** setup_simulated_sram. readInstr and writeInstr are the two instruction
      memories once the programs have been added (the read program at
      cfg.readOffset, the write program at slot 0), txDefault is the control
      word setup_tx_channel builds for the tx channel apart from its data
      size (read increment on, write increment off, byte swap, and the write
      machine's TX request as pacing), shiftCtrl the write machine's SHIFTCTRL
      after its program init, and mem the array's contents. For widths other
      than 16, instruction 1 of each program is rewritten to load the address
      loop count; the immediates fit the 5-bit field of `set`. The result is
      the loop's starting state. */
  function Setup(cfg: Config, mem: seq<bv8>, readInstr: seq<Instr>, writeInstr: seq<Instr>,
                 txDefault: bv32, shiftCtrl: bv32): (e: Emu)
    requires ValidConfig(cfg)
    requires |mem| == RamSize && |readInstr| == InstrSlots && |writeInstr| == InstrSlots
    requires writeInstr[cfg.labels.loopEnd] == JmpPin(cfg.labels.addrTwo)
    requires cfg.addrBits != 16 ==> cfg.labels.loopEnd != WriteOffset + 1
    requires PullThresh(shiftCtrl) == 0
    ensures Ready(cfg, e) && e.mem == mem
    ensures cfg.addrBits != 16 ==>
      && e.readInstr[cfg.readOffset + 1] == SetX(ReadSetImmediate(cfg.addrBits))
      && e.side.instr[WriteOffset + 1] == SetX(WriteSetImmediate(cfg.addrBits))
      && ReadSetImmediate(cfg.addrBits) <= MaxSetImmediate
      && WriteSetImmediate(cfg.addrBits) <= MaxSetImmediate
    ensures forall k :: 0 <= k < InstrSlots && (cfg.addrBits == 16 || k != cfg.readOffset + 1) ==>
      e.readInstr[k] == readInstr[k]
    ensures forall k :: 0 <= k < InstrSlots && (cfg.addrBits == 16 || k != WriteOffset + 1) ==>
      e.side.instr[k] == writeInstr[k]
  {
    var ri := if cfg.addrBits != 16
      then Poke(readInstr, cfg.readOffset + 1, SetX(ReadSetImmediate(cfg.addrBits)))
      else readInstr;
    var wi := if cfg.addrBits != 16
      then Poke(writeInstr, WriteOffset + 1, SetX(WriteSetImmediate(cfg.addrBits)))
      else writeInstr;
    Emu(mem, Armed(cfg.readOffset), Armed(WriteOffset), ri,
        WriteSide(wi, SetTransferSize32(txDefault), shiftCtrl), Idle, Idle, false)
  }

  /** The address of a FAST_READ or WRITE: the first word popped after the
      command, OR-ed with the second. */
  function JoinAddress(first: bv32, second: bv32): bv32
  {
    first | second
  }

  /** pio_sm_get_blocking on a non-empty FIFO. */
  function PopWord(e: Emu): Emu
    requires |e.readSm.fifo| > 0
  {
    e.(readSm := e.readSm.(fifo := e.readSm.fifo[1..]))
  }

  /** Chip-select has risen: each program is wherever the bus left it, the
      read FIFO keeps the words nobody consumed, the tx FIFO the words never
      clocked out. */
  function Deselected(e: Emu, t: Transaction): Emu
  {
    e.(readSm := Stopped(t.readEnd, e.readSm.fifo), writeSm := Stopped(t.writeEnd, t.txLeft))
  }

  /** The tail of every iteration: the write machine is rearmed at slot 0 and
      then the read machine at its entry offset; nothing else changes. */
  function ResetPipelines(cfg: Config, e: Emu): (r: Emu)
    ensures r == e.(writeSm := Armed(WriteOffset), readSm := Armed(cfg.readOffset))
  {
    var w := e.(writeSm := Rearm(e.writeSm, WriteOffset));
    w.(readSm := Rearm(w.readSm, cfg.readOffset))
  }

  /** The one transfer of tx2: the next read-FIFO word goes, untouched by the
      CPU, into the tx channel's read-address trigger, which starts the tx
      channel at that address; tx2's count of one is then used up. */
  function HandOff(e: Emu): (r: Emu)
    requires e.handOffStarted && |e.readSm.fifo| > 0
    ensures r.tx == Running(e.readSm.fifo[0]) && !r.handOffStarted
    ensures r.readSm.fifo == e.readSm.fifo[1..]
    ensures r == PopWord(e).(tx := r.tx, handOffStarted := false)
  {
    PopWord(e).(tx := Running(e.readSm.fifo[0]), handOffStarted := false)
  }

  /** The state right after the command pop: the top of the loop but for
      the read machine, with tx2 not waiting. */
  predicate Entered(cfg: Config, e: Emu)
  {
    LoopTop(cfg, e.(readSm := Armed(cfg.readOffset))) && !e.handOffStarted
  }

  /** READ: start tx2, wait for deselect, abort the tx channel. The bytes
      clocked out are successive memory bytes from the handed-off address.
      When chip-select rises before the address word reaches the FIFO, tx2 is
      left waiting: sram.c never aborts it, the corrected build does. */
  function ReadBranch(cfg: Config, e: Emu, t: Transaction): (r: Outcome<Emu>)
    requires ValidConfig(cfg) && Entered(cfg, e)
    ensures r.CutShort? ==> WaitForCsHigh(t.cs).Some? && !FilteredSeesRise(t)
    ensures r.Served? ==> LoopTop(cfg, r.next) && FilteredSeesRise(t)
    ensures r.Served? ==>
      r.next == e.(readSm := Armed(cfg.readOffset), tx := Idle,
                   handOffStarted := r.next.handOffStarted)
    ensures r.Served? ==> (r.next.handOffStarted <==> |e.readSm.fifo| == 0 && !cfg.abortsHandOff)
    ensures r.Served? && |e.readSm.fifo| == 0 ==> r.miso == []
    ensures |e.readSm.fifo| == 0 ==> (r.Served? <==> FilteredSeesRise(t))
  {
    var started := e.(handOffStarted := true);
    if |started.readSm.fifo| == 0 then
      if WaitForCsHigh(t.cs).None? then Stalled(NoDeselect)
      else if !FilteredSeesRise(t) then CutShort
      else
        var aborted := Deselected(started, t).(tx := Idle);
        var settled := if cfg.abortsHandOff then aborted.(handOffStarted := false) else aborted;
        Served(ResetPipelines(cfg, settled), [])
    else
      var handedOff := HandOff(started);
      match TxStream(handedOff.mem, Offset(handedOff.tx.addr), t.readLen)
      case None => PastRam
      case Some(out) =>
        if WaitForCsHigh(t.cs).None? then Stalled(NoDeselect)
        else if !FilteredSeesRise(t) then CutShort
        else Served(ResetPipelines(cfg, Deselected(handedOff, t).(tx := Idle)), out)
  }

  /** FAST_READ: patch the write side, pop the two address words and OR them,
      trigger the tx channel there, wait for deselect, abort the tx channel
      and revert the patch. */
  function FastReadBranch(cfg: Config, e: Emu, t: Transaction): (r: Outcome<Emu>)
    requires ValidConfig(cfg) && Entered(cfg, e)
    ensures r.CutShort? ==> WaitForCsHigh(t.cs).Some? && !FilteredSeesRise(t)
    ensures r.Served? ==> LoopTop(cfg, r.next) && FilteredSeesRise(t)
    ensures r.Served? ==> r.next == e.(readSm := Armed(cfg.readOffset), tx := Idle)
  {
    var patched := e.(side := FastReadPatch(e.side, cfg.labels));
    if |patched.readSm.fifo| < 2 then Stalled(AwaitingAddress)
    else
      var addr := JoinAddress(patched.readSm.fifo[0], patched.readSm.fifo[1]);
      var triggered := PopWord(PopWord(patched)).(tx := Running(addr));
      match TxStream(triggered.mem, Offset(addr), t.readLen)
      case None => PastRam
      case Some(out) =>
        if WaitForCsHigh(t.cs).None? then Stalled(NoDeselect)
        else if !FilteredSeesRise(t) then CutShort
        else
          var aborted := Deselected(triggered, t).(tx := Idle);
          var reverted := aborted.(side := FastReadUnpatch(aborted.side, cfg.labels));
          FastReadRoundTrip(e.side, cfg.labels);
          Served(ResetPipelines(cfg, reverted), out)
  }

  /** WRITE: pop the two address words and OR them, trigger the rx channel
      there, wait for deselect, spin until the read FIFO is empty, then abort
      the rx channel. The tx channel is left as it was. */
  function WriteBranch(cfg: Config, e: Emu, t: Transaction): (r: Outcome<Emu>)
    requires ValidConfig(cfg) && Entered(cfg, e)
    ensures r.CutShort? ==> WaitForCsHigh(t.cs).Some? && !FilteredSeesRise(t)
    ensures r.Served? ==> LoopTop(cfg, r.next) && FilteredSeesRise(t)
    ensures r.Served? ==> |r.next.mem| == RamSize
    ensures r.Served? ==> r.next == e.(mem := r.next.mem, readSm := Armed(cfg.readOffset))
    ensures r.Served? ==> r.miso == []
  {
    if |e.readSm.fifo| < 2 then Stalled(AwaitingAddress)
    else
      var addr := JoinAddress(e.readSm.fifo[0], e.readSm.fifo[1]);
      var triggered := PopWord(PopWord(e)).(rx := Running(addr));
      match RxTransfers(triggered.mem, Offset(addr), triggered.readSm.fifo, TransferCount)
      case None => PastRam
      case Some((stored, left)) =>
        if WaitForCsHigh(t.cs).None? then Stalled(NoDeselect)
        else if !FilteredSeesRise(t) then CutShort
        else if |left| > 0 then Stalled(DrainNeverEnds)
        else
          var drained := triggered.(mem := stored, readSm := triggered.readSm.(fifo := left));
          Served(ResetPipelines(cfg, Deselected(drained, t).(rx := Idle)), [])
  }

  /** Unknown command: arm nothing, only wait for deselect. */
  function IgnoreBranch(cfg: Config, e: Emu, t: Transaction): (r: Outcome<Emu>)
    requires ValidConfig(cfg) && Entered(cfg, e)
    ensures r.CutShort? ==> WaitForCsHigh(t.cs).Some? && !FilteredSeesRise(t)
    ensures r.Served? ==> LoopTop(cfg, r.next) && FilteredSeesRise(t)
    ensures r.Served? ==> r.next == e.(readSm := Armed(cfg.readOffset)) && r.miso == []
  {
    if WaitForCsHigh(t.cs).None? then Stalled(NoDeselect)
    else if !FilteredSeesRise(t) then CutShort
    else Served(ResetPipelines(cfg, Deselected(e, t)), [])
  }

  /** The loop body from the command pop on, when the CPU's pops see `words`:
      the first is the command, the rest stay in the read FIFO. */
  function Dispatch(cfg: Config, e: Emu, t: Transaction, words: seq<bv32>): (r: Outcome<Emu>)
    requires ValidConfig(cfg) && LoopTop(cfg, e) && !e.handOffStarted
    ensures r.CutShort? ==> WaitForCsHigh(t.cs).Some? && !FilteredSeesRise(t)
    ensures r.Served? ==> |words| > 0 && FilteredSeesRise(t) && LoopTop(cfg, r.next)
    ensures r.Served? ==>
      r.next == e.(mem := r.next.mem, tx := r.next.tx, handOffStarted := r.next.handOffStarted)
    ensures r.Served? && Classify(cfg.addrBits, words[0]) != Write ==> r.next.mem == e.mem
    ensures r.Served? && Classify(cfg.addrBits, words[0]) in {Write, Unknown} ==>
      r.miso == [] && r.next.tx == e.tx && !r.next.handOffStarted
    ensures r.Served? && Classify(cfg.addrBits, words[0]) in {Read, FastRead} ==> r.next.tx == Idle
    ensures r.Served? ==> (r.next.handOffStarted <==>
      |words| == 1 && Classify(cfg.addrBits, words[0]) == Read && !cfg.abortsHandOff)
  {
    if |words| == 0 then Stalled(AwaitingCommand)
    else
      var popped := e.(readSm := e.readSm.(fifo := words[1..]));
      match Classify(cfg.addrBits, words[0])
      case Read => ReadBranch(cfg, popped, t)
      case FastRead => FastReadBranch(cfg, popped, t)
      case Write => WriteBranch(cfg, popped, t)
      case Unknown => IgnoreBranch(cfg, popped, t)
  }

  /** A READ of sram.c that ends before its address word, leaving tx2 waiting. */
  predicate StrandsHandOff(cfg: Config, t: Transaction)
    requires ValidConfig(cfg)
  {
    && !cfg.abortsHandOff
    && |t.words| == 1
    && Classify(cfg.addrBits, t.words[0]) == Read
  }

  /** One iteration of the dispatch loop on one transaction, from the top of
      the loop. When tx2 is still waiting, the first word the read program
      pushes is taken by tx2, restarting the tx channel there, and the CPU's
      pops see only the words after it. From the clean top of the loop a
      served iteration ends with everything but emu_ram exactly as it started
      (both machines rearmed, FAST_READ's patch reverted, every channel
      stopped), except that a stranded READ leaves tx2 waiting. Only a WRITE
      changes emu_ram, and only the read commands drive bytes back. */
  function Step(cfg: Config, e: Emu, t: Transaction): (r: Outcome<Emu>)
    requires ValidConfig(cfg) && LoopTop(cfg, e)
    ensures r.CutShort? ==> WaitForCsHigh(t.cs).Some? && !FilteredSeesRise(t)
    ensures r.Served? ==> |t.words| > 0 && FilteredSeesRise(t) && LoopTop(cfg, r.next)
    ensures r.Served? ==>
      r.next == e.(mem := r.next.mem, tx := r.next.tx, handOffStarted := r.next.handOffStarted)
    ensures Ready(cfg, e) && r.Served? && !StrandsHandOff(cfg, t) ==>
      r.next == e.(mem := r.next.mem) && Ready(cfg, r.next)
    ensures Ready(cfg, e) && r.Served? && StrandsHandOff(cfg, t) ==>
      r.next == e.(handOffStarted := true) && r.miso == []
    ensures Ready(cfg, e) && r.Served? && Classify(cfg.addrBits, t.words[0]) != Write ==>
        r.next.mem == e.mem
    ensures Ready(cfg, e) && r.Served? && Classify(cfg.addrBits, t.words[0]) in {Write, Unknown} ==>
        r.miso == []
  {
    if |t.words| == 0 then Stalled(AwaitingCommand)
    else if e.handOffStarted then
      Dispatch(cfg, e.(tx := Running(t.words[0]), handOffStarted := false), t, t.words[1..])
    else
      Dispatch(cfg, e, t, t.words)
  }

  /** A run's result with one more reply in front. */
  function Prepend(out: seq<bv8>, rest: Option<(Emu, seq<seq<bv8>>)>): Option<(Emu, seq<seq<bv8>>)>
  {
    match rest
    case None => None
    case Some((last, outs)) => Some((last, [out] + outs))
  }

  /** The dispatch loop over successive transactions: the final state and the
      MISO bytes of each transaction, or None once an iteration is not served.
      Every iteration returns to the top of the loop; in the corrected build,
      a run from the clean top of the loop also ends there. */
  function Run(cfg: Config, e: Emu, ts: seq<Transaction>): (r: Option<(Emu, seq<seq<bv8>>)>)
    requires ValidConfig(cfg) && LoopTop(cfg, e)
    ensures r.Some? ==> LoopTop(cfg, r.value.0) && |r.value.1| == |ts|
    ensures r.Some? && cfg.abortsHandOff && Ready(cfg, e) ==> Ready(cfg, r.value.0)
    decreases |ts|
  {
    if |ts| == 0 then Some((e, []))
    else
      var s := Step(cfg, e, ts[0]);
      if !s.Served? then None
      else
        Prepend(s.miso, Run(cfg, s.next, ts[1..]))
  }
}

=== FILE: dma.dfy ===
/** The two data channels as "copy successive bytes from or to an address".
    Both are configured for 65536 transfers; the rx channel reads the read
    state machine's FIFO register (read increment off) and writes emu_ram
    (write increment on) one byte at a time. */
module Dma {
  import opened Base

  /** Transfer count both data channels are configured with. */
  const TransferCount: nat := 65536

  /** A channel either idle or triggered at an address. */
  datatype Chan = Idle | Running(addr: bv32)

  /** The rx channel triggered at dst: each transfer pops one FIFO word and
      stores its low byte at the next destination address, until the FIFO is
      empty or count transfers have been made. Returns the memory and the
      words still in the FIFO, or None when a store would fall outside
      emu_ram (a channel that makes no transfer stores nothing, wherever it
      points). */
  function RxTransfers(mem: seq<bv8>, dst: nat, fifo: seq<bv32>, count: nat)
    : (r: Option<(seq<bv8>, seq<bv32>)>)
    ensures r.Some? <==> Min(|fifo|, count) == 0 || dst + Min(|fifo|, count) <= |mem|
    ensures r.Some? ==> |r.value.0| == |mem| && r.value.1 == fifo[Min(|fifo|, count)..]
    ensures r.Some? ==> forall i :: 0 <= i < |mem| ==>
              r.value.0[i] == if dst <= i < dst + Min(|fifo|, count) then LowByte(fifo[i - dst])
                  else mem[i]
    decreases count
  {
    if count == 0 || |fifo| == 0 then Some((mem, fifo))
    else if dst >= |mem| then None
    else RxTransfers(mem[dst := LowByte(fifo[0])], dst + 1, fifo[1..], count - 1)
  }

  /** The bytes the tx side delivers to the bus master when it clocks n bytes
      out of a channel triggered at src: successive memory bytes. None when a
      byte would come from outside emu_ram. */
  function TxStream(mem: seq<bv8>, src: nat, n: nat): (r: Option<seq<bv8>>)
    ensures r.Some? <==> n == 0 || src + n <= |mem|
    ensures r.Some? ==> |r.value| == n && forall i :: 0 <= i < n ==> r.value[i] == mem[src + i]
    decreases n
  {
    if n == 0 then Some([])
    else if src >= |mem| then None
    else match TxStream(mem, src + 1, n - 1)
      case None => None
      case Some(rest) => Some([mem[src]] + rest)
  }
}

=== FILE: harness.dfy ===
/** The test program on core 0 (main.cpp main): the start-up fill of emu_ram,
    the 11-byte frames it sends, its address choice, and the two byte-by-byte
    checks; and the proof that both checks pass against the earlier
    dispatcher. */
module Harness {
  import opened Base
  import opened ChipSelect
  import opened SramChip
  import opened Bus
  import opened Legacy

  /** BUF_LEN: a three-byte header and eight data bytes. */
  const HeaderLen: nat := 3
  const DataLen: nat := 8
  const BufLen: nat := HeaderLen + DataLen

  /** The start-up fill: every byte of the array receives its own index,
      narrowed to a byte, in increasing order. */
  method FillRam() returns (mem: seq<bv8>)
    ensures |mem| == RamSize
    ensures forall i :: 0 <= i < RamSize ==> mem[i] == FillByte(i) && mem[i] as nat == i % 256
  {
    mem := [];
    var i := 0;
    while i < RamSize
      invariant i == |mem| <= RamSize
      invariant forall j :: 0 <= j < i ==> mem[j] == FillByte(j) && mem[j] as nat == j % 256
    {
      mem := mem + [FillByte(i)];
      i := i + 1;
    }
  }

  /** The test address: a non-negative rand() value reduced modulo the array
      size less the buffer length. */
  function TestAddress(rnd: nat): (a: nat)
    ensures a + BufLen <= RamSize
  {
    rnd % (RamSize - BufLen)
  }

  /** Every address the bound admits is chosen by some rand() value. */
  lemma EveryTestAddressReachable(a: nat)
    requires a + BufLen < RamSize
    ensures TestAddress(a) == a
  {
  }

  /** The frame the harness sends: the command byte, the high and then the
      low byte of the address, and the eight payload bytes; each store
      truncates to a uint8_t. */
  function Frame(cmd: bv8, addr: nat, payload: seq<bv8>): (f: seq<bv8>)
    requires |payload| == DataLen
    ensures |f| == BufLen && f[0] == cmd && f[HeaderLen..] == payload
  {
    [cmd, UInt8(addr / 256), UInt8(addr)] + payload
  }

  /** The dispatcher's shift-and-add of the two address bytes reassembles any address below 64 KiB
      from the two header bytes the harness sends. */
  lemma {:induction false} FrameAddressRoundTrip(cmd: bv8, addr: nat, payload: seq<bv8>)
    requires |payload| == DataLen && addr < RamSize
    ensures var f := Frame(cmd, addr, payload);
      Offset(Address(ZeroExtend(f[1]), ZeroExtend(f[2]))) == addr
  {
    var f := Frame(cmd, addr, payload);
    var hi, lo := addr / 256, addr % 256;
    assert hi < 256 && hi % 256 == hi && hi * 256 + lo == addr;
    ZeroExtendValue(f[1]);
    ZeroExtendValue(f[2]);
    assert ZeroExtend(f[1]) as nat == hi && ZeroExtend(f[2]) as nat == lo;
  }

  lemma ZeroExtendValue(b: bv8)
    ensures ZeroExtend(b) < 256 && ZeroExtend(b) as nat == b as nat
  {
  }

  /** The words the 8-bit read program pushes for a run of MOSI bytes: each
      byte zero-extended. */
  function MosiWords(bs: seq<bv8>): (ws: seq<bv32>)
    ensures |ws| == |bs| && forall i :: 0 <= i < |ws| ==> ws[i] < 256
  {
    seq(|bs|, i requires 0 <= i < |bs| => ZeroExtend(bs[i]))
  }

  function ZeroExtend(b: bv8): bv32
  {
    b as bv32
  }

  /** The rx channel's byte view undoes the zero extension. */
  lemma {:induction false} LowBytesOfMosiWords(bs: seq<bv8>)
    ensures LowBytes(MosiWords(bs)) == bs
  {
    var ws := MosiWords(bs);
    forall i | 0 <= i < |bs|
      ensures LowBytes(ws)[i] == bs[i]
    {
      ByteWordLowByte(bs[i]);
    }
  }

  lemma ByteWordLowByte(b: bv8)
    ensures LowByte(b as bv32) == b
  {
  }

  /** The harness's check loop: every data byte of buf matches emu_ram from
      addr on. */
  predicate DataMatches(buf: seq<bv8>, mem: seq<bv8>, addr: nat)
    requires |buf| == BufLen && addr + DataLen <= |mem|
  {
    forall k :: addr <= k < addr + DataLen ==> buf[HeaderLen + (k - addr)] == mem[k]
  }

  /** Whatever arrives during the header, a buffer whose data part is the
      slice of memory at addr passes the check. */
  lemma SliceMatches(header: seq<bv8>, mem: seq<bv8>, addr: nat)
    requires |header| == HeaderLen && addr + DataLen <= |mem|
    ensures DataMatches(header + mem[addr..addr + DataLen], mem, addr)
  {
  }

  /** A buffer whose data part has just been written at addr passes the
      check against the written memory, and nothing outside the eight bytes
      moved. */
  lemma SpliceMatches(buf: seq<bv8>, mem: seq<bv8>, addr: nat)
    requires |buf| == BufLen && addr + DataLen <= |mem|
    ensures var w := Serve(mem, WriteReq(addr, buf[HeaderLen..]));
      && w.Some? && |w.value.mem| == |mem|
      && DataMatches(buf, w.value.mem, addr)
      && forall i :: 0 <= i < |mem| && !(addr <= i < addr + DataLen) ==> w.value.mem[i] == mem[i]
  {
    WriteStoresRun(mem, addr, buf[HeaderLen..]);
  }

  /** The check loop: ok stays true unless some data byte of the buffer
      differs from the array byte at the same distance from addr. */
  method CheckData(buf: seq<bv8>, mem: seq<bv8>, addr: nat) returns (ok: bool)
    requires |buf| == BufLen && addr + DataLen <= |mem|
    ensures ok <==> DataMatches(buf, mem, addr)
  {
    ok := true;
    var i := 0;
    while i < DataLen
      invariant 0 <= i <= DataLen
      invariant ok <==> forall k :: addr <= k < addr + i ==> buf[HeaderLen + (k - addr)] == mem[k]
    {
      if buf[HeaderLen + i] != mem[addr + i] {
        ok := false;
      }
      i := i + 1;
    }
  }

  /** The read test passes: for a read frame at a harness address, whatever
      the stale payload bytes and the three bytes received during the header,
      the dispatcher serves the transaction once chip-select rises, leaves
      emu_ram alone, and in_buf[3..11) equals emu_ram[addr..addr+8). */
  lemma {:induction false} ReadCheckPasses(cfg: LegacyConfig, b: Board, rnd: nat, stale: seq<bv8>,
                                           header: seq<bv8>, t: Transaction)
    requires LegacyReady(cfg, b)
    requires |stale| == DataLen && |header| == HeaderLen
    requires t.words == MosiWords(Frame(0x3, TestAddress(rnd), stale)) && t.readLen == DataLen
    requires PlainSeesRise(t)
    ensures var r := LegacyStep(cfg, b, t);
      && r.Served? && r.next.mem == b.mem
      && |header + r.miso| == BufLen
      && DataMatches(header + r.miso, b.mem, TestAddress(rnd))
  {
    var a := TestAddress(rnd);
    ReadFrameRequest(a, stale, t);
    LegacyReadReturnsSlice(cfg, b, t, a, DataLen);
    SliceMatches(header, b.mem, a);
  }

  /** A read frame carries the read of DataLen bytes at its address. */
  lemma {:induction false} ReadFrameRequest(a: nat, stale: seq<bv8>, t: Transaction)
    requires a + BufLen <= RamSize && |stale| == DataLen
    requires t.words == MosiWords(Frame(0x3, a, stale)) && t.readLen == DataLen
    ensures LegacyRequested(t) == Some(ReadReq(a, DataLen))
  {
    FrameAddressRoundTrip(0x3, a, stale);
  }

  /** The write test passes: after a write frame at a harness address,
      emu_ram holds the eight payload bytes from addr on and every other byte
      is unchanged. */
  lemma {:induction false} WriteCheckPasses(cfg: LegacyConfig, b: Board, rnd: nat,
                                            payload: seq<bv8>, t: Transaction)
    requires LegacyReady(cfg, b)
    requires |payload| == DataLen
    requires t.words == MosiWords(Frame(0x2, TestAddress(rnd), payload))
    requires PlainSeesRise(t)
    ensures var r := LegacyStep(cfg, b, t);
      && r.Served? && r.miso == []
      && |r.next.mem| == RamSize
      && DataMatches(Frame(0x2, TestAddress(rnd), payload), r.next.mem, TestAddress(rnd))
      && forall i :: 0 <= i < RamSize && !(TestAddress(rnd) <= i < TestAddress(rnd) + DataLen) ==>
           r.next.mem[i] == b.mem[i]
  {
    var a := TestAddress(rnd);
    FrameAddressRoundTrip(0x2, a, payload);
    assert t.words[3..] == MosiWords(payload);
    LowBytesOfMosiWords(payload);
    assert LegacyRequested(t) == Some(WriteReq(a, payload));
    LegacyWriteSplices(cfg, b, t, a, payload);
    SpliceMatches(Frame(0x2, a, payload), b.mem, a);
  }
}

=== FILE: legacy.dfy ===
/** The earlier 16-bit dispatcher (main.cpp): commands 0x3 and 0x2 only, the
    address assembled from two popped bytes as hi << 8 + lo, a plain
    wait-while-low for deselect, and only the machines a command used reset
    afterwards. */
module Legacy {
  import opened Base
  import opened ChipSelect
  import opened Pio
  import opened Dma
  import opened SramChip
  import opened Bus
  import opened Refinement

  /** The two opcodes this dispatcher knows. */
  const LegacyRead: bv32 := 0x3
  const LegacyWrite: bv32 := 0x2

  /** Where pio_add_program put the two programs. */
  datatype LegacyConfig = LegacyConfig(readOffset: nat, writeOffset: nat)

  /** emu_ram, the two state machines, and channel 0 (rx, into emu_ram) and
      channel 1 (tx, out of emu_ram), both byte-wide. */
  datatype Board = Board(mem: seq<bv8>, readSm: Shifter, writeSm: Shifter, rx: Chan, tx: Chan)

  /** The top of the loop. The write machine is not constrained: only a read
      rearms it, so after a write or an unknown command it stays wherever the
      bus left it. */
  predicate LegacyReady(cfg: LegacyConfig, b: Board)
  {
    && |b.mem| == RamSize
    && b.readSm == Armed(cfg.readOffset)
    && b.rx == Idle
    && b.tx == Idle
  }

  /** The earlier dispatcher's address: the first popped word shifted up by
      eight bits plus the second, on 32-bit words, as an offset into emu_ram.
      When both popped words are bytes the address is hi * 256 + lo and lies
      inside the array. */
  function Address(hi: bv32, lo: bv32): (a: bv32)
    ensures hi < 256 && lo < 256 ==> Offset(a) == hi as nat * 256 + lo as nat
    ensures hi < 256 && lo < 256 ==> Offset(a) < RamSize
  {
    DisjointLanesAdd(hi, lo);
    DisjointLanesValue(hi, lo);
    (hi << 8) + lo
  }

  /** With hi and lo below 256 the two terms occupy different bits, so the
      sum is their OR. */
  lemma DisjointLanesAdd(hi: bv32, lo: bv32)
    ensures hi < 256 && lo < 256 ==> (hi << 8) + lo == (hi << 8) | lo
  {
  }

  lemma DisjointLanesValue(hi: bv32, lo: bv32)
    ensures hi < 256 && lo < 256 ==> Offset((hi << 8) | lo) == hi as nat * 256 + lo as nat
  {
  }

  /** Chip-select has risen: the read machine keeps the words nobody popped,
      the write machine stops wherever the bus left it. */
  function Released(b: Board, fifo: seq<bv32>, t: Transaction): Board
  {
    b.(readSm := Stopped(t.readEnd, fifo), writeSm := Stopped(t.writeEnd, t.txLeft))
  }

  /** The tail of every iteration: only the read machine is rearmed. */
  function RearmReader(cfg: LegacyConfig, b: Board): (r: Board)
    ensures r == b.(readSm := Armed(cfg.readOffset))
  {
    b.(readSm := Rearm(b.readSm, cfg.readOffset))
  }

  /** One iteration of the loop on one transaction. A read triggers channel
      1 at the address, waits for chip-select, aborts channel 1 and rearms the
      write machine; a write triggers channel 0, waits, drains and aborts
      channel 0; anything else only waits. Every iteration then rearms the
      read machine. */
  function LegacyStep(cfg: LegacyConfig, b: Board, t: Transaction): (r: Outcome<Board>)
    requires LegacyReady(cfg, b)
    ensures r.Served? ==> |t.words| > 0 && PlainSeesRise(t)
    ensures r.Served? ==>
      LegacyReady(cfg, r.next) && r.next == b.(mem := r.next.mem, writeSm := r.next.writeSm)
    ensures r.Served? && t.words[0] != LegacyWrite ==> r.next.mem == b.mem
    ensures r.Served? && t.words[0] == LegacyRead ==> r.next.writeSm == Armed(cfg.writeOffset)
    ensures r.Served? && t.words[0] != LegacyRead ==>
      r.next.writeSm == Stopped(t.writeEnd, t.txLeft)
    ensures r.Served? && t.words[0] != LegacyRead ==> r.miso == []
  {
    if |t.words| == 0 then Stalled(AwaitingCommand)
    else
      var cmd, fifo := t.words[0], t.words[1..];
      if cmd == LegacyRead then
        if |fifo| < 2 then Stalled(AwaitingAddress)
        else
          var addr := Address(fifo[0], fifo[1]);
          match TxStream(b.mem, Offset(addr), t.readLen)
          case None => PastRam
          case Some(out) =>
            if WaitWhileLow(t.cs).None? then Stalled(NoDeselect)
            else if !PlainSeesRise(t) then CutShort
            else
              var released := Released(b.(tx := Running(addr)), fifo[2..], t);
              var aborted := released.(tx := Idle);
              var rearmed := aborted.(writeSm := Rearm(aborted.writeSm, cfg.writeOffset));
              Served(RearmReader(cfg, rearmed), out)
      else if cmd == LegacyWrite then
        if |fifo| < 2 then Stalled(AwaitingAddress)
        else
          var addr := Address(fifo[0], fifo[1]);
          match RxTransfers(b.mem, Offset(addr), fifo[2..], TransferCount)
          case None => PastRam
          case Some((stored, left)) =>
            if WaitWhileLow(t.cs).None? then Stalled(NoDeselect)
            else if !PlainSeesRise(t) then CutShort
            else if |left| > 0 then Stalled(DrainNeverEnds)
            else
              var released := Released(b.(mem := stored, rx := Running(addr)), left, t);
              Served(RearmReader(cfg, released.(rx := Idle)), [])
      else
        if WaitWhileLow(t.cs).None? then Stalled(NoDeselect)
        else if !PlainSeesRise(t) then CutShort
        else Served(RearmReader(cfg, Released(b, fifo, t)), [])
  }

  /** The request a transaction carries for this dispatcher. */
  function LegacyRequested(t: Transaction): Option<Request>
  {
    if |t.words| == 0 then None
    else if t.words[0] == LegacyRead || t.words[0] == LegacyWrite then
      if |t.words| < 3 then None
      else
        var a := Offset(Address(t.words[1], t.words[2]));
        if t.words[0] == LegacyRead then Some(ReadReq(a, t.readLen))
        else Some(WriteReq(a, LowBytes(t.words[3..])))
    else Some(NoOp)
  }

  /** Served exactly when the transaction carries a whole request, the chip
      could serve it inside emu_ram, and the plain wait sees chip-select
      really rise; and then emu_ram and the MISO bytes are the chip's. It leaves emu_ram only for a
      whole request the chip could not serve inside it, and is cut short only
      when the plain wait breaks on a glitch before the real rise. */
  predicate LegacyServesRequest(cfg: LegacyConfig, b: Board, t: Transaction)
    requires LegacyReady(cfg, b)
  {
    var r := LegacyStep(cfg, b, t);
    && (r.Served? <==>
         && LegacyRequested(t).Some?
         && Serve(b.mem, LegacyRequested(t).value).Some?
         && PlainSeesRise(t))
    && (r.Served? ==> Serve(b.mem, LegacyRequested(t).value) == Some(Reply(r.next.mem, r.miso)))
    && (r.PastRam? ==> LegacyRequested(t).Some? && Serve(b.mem, LegacyRequested(t).value).None?)
    && (r.CutShort? ==> WaitWhileLow(t.cs).Some? && !PlainSeesRise(t))
  }

  /** The earlier dispatcher refines the reference chip as well. */
  lemma {:induction false} LegacyStepServesRequest(cfg: LegacyConfig, b: Board, t: Transaction)
    requires LegacyReady(cfg, b)
    ensures LegacyServesRequest(cfg, b, t)
  {
    if |t.words| >= 3 {
      var a := Offset(Address(t.words[1], t.words[2]));
      if t.words[0] == LegacyRead {
        ReadStreamIsSlice(b.mem, a, t.readLen);
      } else if t.words[0] == LegacyWrite {
        assert t.words[1..][2..] == t.words[3..];
        WriteRunIsSplice(b.mem, a, t.words[3..]);
      }
    }
  }

  /** With byte-wide address words, as the 8-bit read program pushes them,
      no command can address outside emu_ram: a read or write whose data
      fits below the top of the array is always served once chip-select
      rises. */
  lemma {:induction false} ByteAddressesStayInRam(cfg: LegacyConfig, b: Board, t: Transaction)
    requires LegacyReady(cfg, b)
    requires |t.words| >= 3 && (t.words[0] == LegacyRead || t.words[0] == LegacyWrite)
    requires t.words[1] < 256 && t.words[2] < 256
    requires t.words[0] == LegacyRead ==>
        t.words[1] as nat * 256 + t.words[2] as nat + t.readLen <= RamSize
    requires t.words[0] == LegacyWrite ==>
        t.words[1] as nat * 256 + t.words[2] as nat + |t.words| - 3 <= RamSize
    requires PlainSeesRise(t)
    ensures LegacyStep(cfg, b, t).Served?
  {
    LegacyStepServesRequest(cfg, b, t);
  }

  /** A whole read request inside emu_ram returns the slice at its address. */
  lemma {:induction false} LegacyReadReturnsSlice(cfg: LegacyConfig, b: Board, t: Transaction,
      a: nat, n: nat)
    requires LegacyReady(cfg, b)
    requires LegacyRequested(t) == Some(ReadReq(a, n)) && a + n <= RamSize
    requires PlainSeesRise(t)
    ensures LegacyStep(cfg, b, t).Served?
    ensures LegacyStep(cfg, b, t).miso == b.mem[a..a + n]
    ensures LegacyStep(cfg, b, t).next.mem == b.mem
  {
    LegacyStepServesRequest(cfg, b, t);
  }

  /** A whole write request inside emu_ram splices its data in at its
      address. */
  lemma {:induction false} LegacyWriteSplices(cfg: LegacyConfig, b: Board, t: Transaction, a: nat,
      d: seq<bv8>)
    requires LegacyReady(cfg, b)
    requires LegacyRequested(t) == Some(WriteReq(a, d)) && a + |d| <= RamSize
    requires PlainSeesRise(t)
    ensures LegacyStep(cfg, b, t).Served? && LegacyStep(cfg, b, t).miso == []
    ensures LegacyStep(cfg, b, t).next.mem == Serve(b.mem, WriteReq(a, d)).value.mem
  {
    LegacyStepServesRequest(cfg, b, t);
  }

  /** One high poll before the real rise ends the plain wait: a read of eight
      bytes at 0x0010 is cut short there, with its channel aborted while the
      master is still clocking. */
  lemma {:induction false} GlitchCutsLegacyReadShort(cfg: LegacyConfig, b: Board, t: Transaction)
    requires LegacyReady(cfg, b)
    requires t.words == [LegacyRead, 0x00, 0x10] && t.readLen == 8
    requires t.cs == [false, true, false, false, true, true] && t.rise == 4
    ensures LegacyStep(cfg, b, t) == CutShort
  {
    GlitchCutsPlainWaitShort();
    assert Offset(Address(0x00, 0x10)) == 0x10;
  }
}

=== FILE: opcodes.dfy ===
/** Command decoding of the dispatcher. The three SRAM opcodes are one byte
    each; for address widths above 16 bits the read program delivers the
    command word shifted left, so the opcodes are compared shifted by the same
    amount. */
module Opcodes {

  /** The default of the build-time address width (SIM_SRAM_ADDR_BITS). */
  const DefaultAddrBits: nat := 16

  /** Address widths the source supports. */
  predicate ValidAddrBits(bits: nat)
  {
    16 <= bits <= 24
  }

  /** An opcode byte as the dispatcher compares it for the given width. */
  function Scaled(op: bv32, bits: nat): bv32
    requires ValidAddrBits(bits)
  {
    op << (bits - 16)
  }

  function ReadCommand(bits: nat): bv32
    requires ValidAddrBits(bits)
  {
    Scaled(0x03, bits)
  }

  function FastReadCommand(bits: nat): bv32
    requires ValidAddrBits(bits)
  {
    Scaled(0x0B, bits)
  }

  function WriteCommand(bits: nat): bv32
    requires ValidAddrBits(bits)
  {
    Scaled(0x02, bits)
  }

  /** Shifting a byte left by at most 8 places keeps every bit of it. */
  lemma ScaledValue(op: bv32, bits: nat)
    requires ValidAddrBits(bits) && op < 0x100
    ensures Scaled(op, bits) >> (bits - 16) == op
    ensures Scaled(op, bits) < 0x10000
  {
  }

  /** For every supported width the three command words differ, so a command
      word selects at most one branch of the dispatcher. */
  lemma OpcodesDistinct(bits: nat)
    requires ValidAddrBits(bits)
    ensures ReadCommand(bits) != FastReadCommand(bits)
    ensures ReadCommand(bits) != WriteCommand(bits)
    ensures FastReadCommand(bits) != WriteCommand(bits)
  {
    ScaledValue(0x03, bits);
    ScaledValue(0x0B, bits);
    ScaledValue(0x02, bits);
  }

  datatype Command = Read | FastRead | Write | Unknown

  /** The if/else-if chain of the dispatch loop. Each known branch is taken
      exactly when the command word equals its opcode; every other word falls
      into the ignore branch. */
  function Classify(bits: nat, cmd: bv32): (c: Command)
    requires ValidAddrBits(bits)
    ensures c == Read <==> cmd == ReadCommand(bits)
    ensures c == FastRead <==> cmd == FastReadCommand(bits)
    ensures c == Write <==> cmd == WriteCommand(bits)
    ensures c == Unknown <==> cmd !in {ReadCommand(bits), FastReadCommand(bits), WriteCommand(bits)}
  {
    OpcodesDistinct(bits);
    if cmd == ReadCommand(bits) then Read
    else if cmd == FastReadCommand(bits) then FastRead
    else if cmd == WriteCommand(bits) then Write
    else Unknown
  }

  /** The opcodes of the default 16-bit build and of the widest, 24-bit one. */
  lemma OpcodeValues()
    ensures ReadCommand(DefaultAddrBits) == 0x03 && FastReadCommand(DefaultAddrBits) == 0x0B
    ensures WriteCommand(DefaultAddrBits) == 0x02
    ensures ReadCommand(24) == 0x300 && FastReadCommand(24) == 0xB00 && WriteCommand(24) == 0x200
  {
  }

  /** The loop count loaded by instruction 1 of the read program for widths
      other than 16: `set x, ADDR_BITS - 9`. */
  function ReadSetImmediate(bits: nat): nat
    requires ValidAddrBits(bits)
  {
    bits - 9
  }

  /** The loop count loaded by instruction 1 of the write program for widths
      other than 16: `set x, ADDR_BITS + 6`. */
  function WriteSetImmediate(bits: nat): nat
    requires ValidAddrBits(bits)
  {
    bits + 6
  }
}

=== FILE: pio.dfy ===
/** The programmable I/O blocks as the dispatcher sees them: an instruction
    memory per block and, per state machine, its enable flag, program counter,
    the FIFO the dispatcher cares about and the bits sitting half-shifted in its
    shift register. */
module Pio {
  import opened Base

  /** Instruction slots in one PIO block. */
  const InstrSlots: nat := 32

  /** Largest immediate a `set` instruction can hold (a 5-bit field). */
  const MaxSetImmediate: nat := 31

  /** The instructions the source writes into instruction memory; everything
      else the assembled programs contain is `Other`. */
  datatype Instr =
    | Jmp(target: nat)
    | JmpPin(target: nat)
    | SetX(value: nat)
    | Other(code: bv16)

  datatype Shifter = Shifter(enabled: bool, pc: nat, fifo: seq<bv32>, shiftCount: nat)

  /** Where a program was when chip-select rose: its program counter and the
      number of bits left half-shifted. The programs themselves are not part
      of this model, so this is whatever the bus left behind. */
  datatype Residue = Residue(pc: nat, shiftCount: nat)

  /** A state machine ready for the next transaction: running, at its entry
      offset, with an empty FIFO and an empty shift register. */
  function Armed(entry: nat): Shifter
  {
    Shifter(true, entry, [], 0)
  }

  /** The state a transaction leaves a running state machine in. */
  function Stopped(r: Residue, fifo: seq<bv32>): Shifter
  {
    Shifter(true, r.pc, fifo, r.shiftCount)
  }

  /** pio_sm_set_enabled */
  function SetEnabled(s: Shifter, on: bool): Shifter
  {
    s.(enabled := on)
  }

  /** pio_sm_clear_fifos */
  function ClearFifos(s: Shifter): Shifter
  {
    s.(fifo := [])
  }

  /** pio_sm_restart: clears the shift counters, leaves the program counter. */
  function Restart(s: Shifter): Shifter
  {
    s.(shiftCount := 0)
  }

  /** pio_sm_exec of `jmp target`. */
  function ExecJmp(s: Shifter, target: nat): Shifter
  {
    s.(pc := target)
  }

  /** The five-call sequence the dispatcher runs on each state machine after a
      transaction: disable, clear the FIFOs, restart, jump to the entry
      offset, enable. Whatever the transaction left behind, the result is the
      armed state at that entry. */
  function Rearm(s: Shifter, entry: nat): (r: Shifter)
    ensures r == Armed(entry)
  {
    SetEnabled(ExecJmp(Restart(ClearFifos(SetEnabled(s, false))), entry), true)
  }

  /** Replacing one slot of an instruction memory. */
  function Poke(mem: seq<Instr>, slot: nat, i: Instr): (r: seq<Instr>)
    requires slot < |mem|
    ensures |r| == |mem| && r[slot] == i
    ensures forall k :: 0 <= k < |mem| && k != slot ==> r[k] == mem[k]
  {
    mem[slot := i]
  }
}

=== FILE: properties.dfy ===
/** Whole-transaction properties of the current dispatcher: non-interference
    of unknown commands, fast-read equivalence, the write/read round trip and
    the end-to-end scenario on the filled array. */
module Properties {
  import opened Base
  import opened ChipSelect
  import opened Opcodes
  import opened SramChip
  import opened Bus
  import opened Dispatcher
  import opened Refinement

  /** An unknown command changes nothing a later transaction can observe:
      running it first only adds an empty reply. */
  lemma {:induction false} UnknownCommandInvisible(cfg: Config, e: Emu, u: Transaction,
      ts: seq<Transaction>)
    requires ValidConfig(cfg) && Ready(cfg, e)
    requires |u.words| > 0 && Classify(cfg.addrBits, u.words[0]) == Unknown
    requires FilteredSeesRise(u)
    ensures Run(cfg, e, [u] + ts) == Prepend([], Run(cfg, e, ts))
  {
    var s := Step(cfg, e, u);
    assert s.Served? && s.next == e && s.miso == [];
    RunCons(cfg, e, [u] + ts);
    assert ([u] + ts)[1..] == ts;
  }

  /** FAST_READ at the OR of its two address words behaves exactly like READ
      handed that address: same outcome, same bytes, same next state. */
  lemma {:induction false} FastReadMatchesRead(cfg: Config, e: Emu, tf: Transaction,
      tr: Transaction)
    requires ValidConfig(cfg) && Ready(cfg, e)
    requires |tf.words| >= 3 && tf.words[0] == FastReadCommand(cfg.addrBits)
    requires |tr.words| >= 2 && tr.words[0] == ReadCommand(cfg.addrBits)
    requires tr.words[1] == JoinAddress(tf.words[1], tf.words[2])
    requires tr.readLen == tf.readLen && tr.cs == tf.cs && tr.rise == tf.rise
    ensures Step(cfg, e, tf) == Step(cfg, e, tr)
  {
    StepServesRequest(cfg, e, tf);
    StepServesRequest(cfg, e, tr);
    var f, r := Step(cfg, e, tf), Step(cfg, e, tr);
    assert Requested(cfg, tf) == Requested(cfg, tr);
    if f.Served? {
      assert f.next == e && r.next == e;
    } else if f.Stalled? {
      assert f.why == r.why;
    }
  }

  /** A run whose first iteration is served continues from that iteration's
      state, its reply first. */
  lemma RunCons(cfg: Config, e: Emu, ts: seq<Transaction>)
    requires ValidConfig(cfg) && LoopTop(cfg, e)
    requires |ts| > 0 && Step(cfg, e, ts[0]).Served?
    ensures Run(cfg, e, ts) ==
      Prepend(Step(cfg, e, ts[0]).miso, Run(cfg, Step(cfg, e, ts[0]).next, ts[1..]))
  {
  }

  /** Round trip: a WRITE of data at an address followed by a READ of as many
      bytes at that address returns the data. */
  lemma {:induction false} WriteThenReadBack(cfg: Config, e: Emu, tw: Transaction, tr: Transaction)
    requires ValidConfig(cfg) && Ready(cfg, e)
    requires |tw.words| >= 3 && tw.words[0] == WriteCommand(cfg.addrBits)
    requires Offset(JoinAddress(tw.words[1], tw.words[2])) + |tw.words| - 3 <= RamSize
    requires |tr.words| >= 2 && tr.words[0] == ReadCommand(cfg.addrBits)
    requires tr.words[1] == JoinAddress(tw.words[1], tw.words[2])
    requires tr.readLen == |tw.words| - 3
    requires FilteredSeesRise(tw) && FilteredSeesRise(tr)
    ensures Step(cfg, e, tw).Served?
    ensures var w := Step(cfg, e, tw).next;
      Step(cfg, w, tr).Served? && Step(cfg, w, tr).miso == LowBytes(tw.words[3..])
  {
    var a := Offset(JoinAddress(tw.words[1], tw.words[2]));
    var d := LowBytes(tw.words[3..]);
    WriteThenRead(e.mem, a, d);
    var written := Serve(e.mem, WriteReq(a, d)).value.mem;
    var w := Step(cfg, e, tw);
    assert w.Served? && w.next.mem == written && w.miso == [] by {
      StepServesRequest(cfg, e, tw);
      assert Requested(cfg, tw) == Some(WriteReq(a, d));
    }
    var r := Step(cfg, w.next, tr);
    assert r.Served? && r.miso == d by {
      StepServesRequest(cfg, w.next, tr);
      assert Requested(cfg, tr) == Some(ReadReq(a, |d|));
    }
  }

  /** A READ of n bytes at an address returns the n bytes stored there. */
  lemma {:induction false} ReadReturnsStored(cfg: Config, e: Emu, tr: Transaction, a: nat,
      d: seq<bv8>)
    requires ValidConfig(cfg) && Ready(cfg, e)
    requires |tr.words| >= 2 && tr.words[0] == ReadCommand(cfg.addrBits)
    requires Offset(tr.words[1]) == a && tr.readLen == |d| && a + |d| <= RamSize
    requires e.mem[a..a + |d|] == d
    requires FilteredSeesRise(tr)
    ensures Step(cfg, e, tr).Served? && Step(cfg, e, tr).miso == d
    ensures Step(cfg, e, tr).next.mem == e.mem
  {
    StepServesRequest(cfg, e, tr);
    assert Requested(cfg, tr) == Some(ReadReq(a, |d|));
  }

  /** A WRITE of four bytes at 0x00FF stores them there and leaves the first
      four bytes of the array alone. */
  lemma {:induction false} WriteAboveKeepsLow(cfg: Config, e: Emu, tw: Transaction)
    requires ValidConfig(cfg) && Ready(cfg, e)
    requires |tw.words| == 7 && tw.words[0] == WriteCommand(cfg.addrBits)
    requires Offset(JoinAddress(tw.words[1], tw.words[2])) == 0x00FF
    requires FilteredSeesRise(tw)
    ensures Step(cfg, e, tw).Served? && Step(cfg, e, tw).next.mem[0..4] == e.mem[0..4]
    ensures Step(cfg, e, tw).next.mem[0x00FF..0x0103] == LowBytes(tw.words[3..])
    ensures Ready(cfg, Step(cfg, e, tw).next)
  {
    var d := LowBytes(tw.words[3..]);
    StepServesRequest(cfg, e, tw);
    assert Requested(cfg, tw) == Some(WriteReq(0x00FF, d));
    WriteStoresRun(e.mem, 0x00FF, d);
  }

  /** The filled array starts 00 01 02 03. */
  lemma FilledStart(mem: seq<bv8>)
    requires |mem| == RamSize && forall i :: 0 <= i < RamSize ==> mem[i] == FillByte(i)
    ensures mem[0..4] == [0x00, 0x01, 0x02, 0x03]
  {
    var b0, b1, b2, b3 := FillByte(0), FillByte(1), FillByte(2), FillByte(3);
    assert b0 == 0x00 && b1 == 0x01 && b2 == 0x02 && b3 == 0x03;
    assert mem[0] == b0 && mem[1] == b1 && mem[2] == b2 && mem[3] == b3;
  }

  /** The end-to-end scenario on the 16-bit build, starting from the filled
      array: write AA BB CC DD at 0x00FF, read them back, then read four
      untouched bytes at 0x0000 and get the fill pattern 00 01 02 03. */
  lemma {:induction false} EndToEndScenario(cfg: Config, e: Emu, tw: Transaction, tr1: Transaction,
      tr2: Transaction)
    requires ValidConfig(cfg) && cfg.addrBits == 16 && Ready(cfg, e)
    requires forall i :: 0 <= i < RamSize ==> e.mem[i] == FillByte(i)
    requires |tw.words| == 7 && tw.words[0] == WriteCommand(16)
    requires JoinAddress(tw.words[1], tw.words[2]) == 0x00FF
    requires tw.words[3..] == [0xAA, 0xBB, 0xCC, 0xDD]
    requires tr1.words == [ReadCommand(16), 0x00FF] && tr1.readLen == 4
    requires tr2.words == [ReadCommand(16), 0x0000] && tr2.readLen == 4
    requires FilteredSeesRise(tw) && FilteredSeesRise(tr1) && FilteredSeesRise(tr2)
    ensures Step(cfg, e, tw).Served?
    ensures var e1 := Step(cfg, e, tw).next;
      && Step(cfg, e1, tr1).Served?
      && Step(cfg, e1, tr1).miso == [0xAA, 0xBB, 0xCC, 0xDD]
      && Step(cfg, Step(cfg, e1, tr1).next, tr2).Served?
      && Step(cfg, Step(cfg, e1, tr1).next, tr2).miso == [0x00, 0x01, 0x02, 0x03]
  {
    var d: seq<bv8> := [0xAA, 0xBB, 0xCC, 0xDD];
    assert LowBytes(tw.words[3..]) == d;
    assert Offset(0x00FF) == 0x00FF && Offset(0x0000) == 0;
    WriteAboveKeepsLow(cfg, e, tw);
    var e1 := Step(cfg, e, tw).next;
    ReadReturnsStored(cfg, e1, tr1, 0x00FF, d);
    var e2 := Step(cfg, e1, tr1).next;
    FilledStart(e.mem);
    ReadReturnsStored(cfg, e2, tr2, 0, [0x00, 0x01, 0x02, 0x03]);
  }

  /** Chip-select rising after the command but before its address. WRITE and
      FAST_READ stay blocked on the address pop. READ has started tx2, which
      gets no word: the iteration still completes, driving nothing, and leaves
      tx2 waiting unless the build aborts it. */
  lemma {:induction false} DeselectBeforeAddress(cfg: Config, e: Emu, t: Transaction)
    requires ValidConfig(cfg) && Ready(cfg, e)
    requires |t.words| == 1
    ensures Classify(cfg.addrBits, t.words[0]) == Read && FilteredSeesRise(t) ==>
      && Step(cfg, e, t).Served? && Step(cfg, e, t).miso == []
      && Step(cfg, e, t).next == e.(handOffStarted := !cfg.abortsHandOff)
    ensures Classify(cfg.addrBits, t.words[0]) in {FastRead, Write} ==>
      Step(cfg, e, t) == Stalled(AwaitingAddress)
    ensures Classify(cfg.addrBits, t.words[0]) == Unknown && FilteredSeesRise(t) ==>
      Step(cfg, e, t).Served? && Step(cfg, e, t).next == e
  {
    var popped := e.(readSm := e.readSm.(fifo := t.words[1..]));
    assert |popped.readSm.fifo| == 0;
  }

  /** In the 24-bit build a READ at 0x123456 addresses past the end of the
      64 KiB array, so no byte of it can come from emu_ram. */
  lemma {:induction false} WideAddressOutsideArray(cfg: Config, e: Emu, t: Transaction)
    requires ValidConfig(cfg) && cfg.addrBits == 24 && Ready(cfg, e)
    requires t.words == [ReadCommand(24), 0x123456] && t.readLen == 3
    ensures Step(cfg, e, t) == PastRam
  {
    OpcodeValues();
    assert Offset(0x123456) == 0x123456;
    StepServesRequest(cfg, e, t);
  }

  /** Glitch immunity of the whole iteration: when no two consecutive polls
      before the real rise read high, no iteration is cut short. */
  lemma {:induction false} IsolatedGlitchesNeverCutShort(cfg: Config, e: Emu, t: Transaction)
    requires ValidConfig(cfg) && LoopTop(cfg, e)
    requires forall j :: 0 <= j && j + 1 < t.rise ==> !StableHighAt(t.cs, j)
    ensures !Step(cfg, e, t).CutShort?
  {
    FilterWaitsForRise(t.cs, t.rise);
  }
}

=== FILE: refinement.dfy ===
/** The current dispatcher measured against the reference chip: what an
    iteration does to emu_ram and drives on MISO is exactly what an SPI SRAM
    does with the request the transaction carries. */
module Refinement {
  import opened Base
  import opened ChipSelect
  import opened Opcodes
  import opened Dma
  import opened SramChip
  import opened Bus
  import opened Dispatcher

  /** The request a transaction carries, read the way the dispatcher reads
      it: a READ's address is the one word after the command (moved by tx2), a
      FAST_READ's or WRITE's address the OR of the two words after it, and a
      WRITE's data the low bytes of every further word. A READ that ends at its
      command asks the chip for nothing. None when the words stop before the
      command, or before a FAST_READ's or WRITE's address is complete. */
  function Requested(cfg: Config, t: Transaction): Option<Request>
    requires ValidConfig(cfg)
  {
    if |t.words| == 0 then None
    else match Classify(cfg.addrBits, t.words[0])
      case Read =>
        if |t.words| < 2 then Some(NoOp)
        else Some(ReadReq(Offset(t.words[1]), t.readLen))
      case FastRead =>
        if |t.words| < 3 then None
        else Some(ReadReq(Offset(JoinAddress(t.words[1], t.words[2])), t.readLen))
      case Write =>
        if |t.words| < 3 then None
        else Some(WriteReq(Offset(JoinAddress(t.words[1], t.words[2])), LowBytes(t.words[3..])))
      case Unknown => Some(NoOp)
  }

  /** The iteration is served exactly when the transaction carries a whole
      request, the chip could serve it inside emu_ram, and the wait sees
      chip-select really rise; and then emu_ram and the MISO bytes are the chip's. It leaves
      emu_ram only for a whole request the chip could not serve inside it,
      and is cut short only when the wait breaks before the real rise. */
  predicate ServesRequest(cfg: Config, e: Emu, t: Transaction)
    requires ValidConfig(cfg) && Ready(cfg, e)
  {
    var r := Step(cfg, e, t);
    && (r.Served? <==>
         && Requested(cfg, t).Some?
         && Serve(e.mem, Requested(cfg, t).value).Some?
         && FilteredSeesRise(t))
    && (r.Served? ==> Serve(e.mem, Requested(cfg, t).value) == Some(Reply(r.next.mem, r.miso)))
    && (r.PastRam? ==> Requested(cfg, t).Some? && Serve(e.mem, Requested(cfg, t).value).None?)
    && (r.CutShort? ==> WaitForCsHigh(t.cs).Some? && !FilteredSeesRise(t))
  }

  /** The dispatcher refines the reference chip on every transaction. */
  lemma {:induction false} StepServesRequest(cfg: Config, e: Emu, t: Transaction)
    requires ValidConfig(cfg) && Ready(cfg, e)
    ensures ServesRequest(cfg, e, t)
  {
    if |t.words| > 0 {
      match Classify(cfg.addrBits, t.words[0])
      case Read => ReadServesRequest(cfg, e, t);
      case FastRead => FastReadServesRequest(cfg, e, t);
      case Write => WriteServesRequest(cfg, e, t);
      case Unknown =>
    }
  }

  lemma ReadServesRequest(cfg: Config, e: Emu, t: Transaction)
    requires ValidConfig(cfg) && Ready(cfg, e)
    requires |t.words| > 0 && Classify(cfg.addrBits, t.words[0]) == Read
    ensures ServesRequest(cfg, e, t)
  {
    if |t.words| >= 2 {
      ReadStreamIsSlice(e.mem, Offset(t.words[1]), t.readLen);
    }
  }

  lemma FastReadServesRequest(cfg: Config, e: Emu, t: Transaction)
    requires ValidConfig(cfg) && Ready(cfg, e)
    requires |t.words| > 0 && Classify(cfg.addrBits, t.words[0]) == FastRead
    ensures ServesRequest(cfg, e, t)
  {
    var popped := e.(readSm := e.readSm.(fifo := t.words[1..]));
    assert Step(cfg, e, t) == FastReadBranch(cfg, popped, t);
    if |t.words| >= 3 {
      var addr := Offset(JoinAddress(t.words[1], t.words[2]));
      ReadStreamIsSlice(e.mem, addr, t.readLen);
      var b := FastReadBranch(cfg, popped, t);
      assert b.Served? ==> b.miso == TxStream(e.mem, addr, t.readLen).value;
    }
  }

  lemma WriteServesRequest(cfg: Config, e: Emu, t: Transaction)
    requires ValidConfig(cfg) && Ready(cfg, e)
    requires |t.words| > 0 && Classify(cfg.addrBits, t.words[0]) == Write
    ensures ServesRequest(cfg, e, t)
  {
    var popped := e.(readSm := e.readSm.(fifo := t.words[1..]));
    assert Step(cfg, e, t) == WriteBranch(cfg, popped, t);
    if |t.words| >= 3 {
      var addr := Offset(JoinAddress(t.words[1], t.words[2]));
      assert t.words[1..][2..] == t.words[3..];
      WriteRunIsSplice(e.mem, addr, t.words[3..]);
      var rx := RxTransfers(e.mem, addr, t.words[3..], TransferCount);
      var b := WriteBranch(cfg, popped, t);
      assert b.Served? ==> rx.Some? && b.next.mem == rx.value.0;
    }
  }

  /** The tx stream read byte by byte is the chip's read. */
  lemma ReadStreamIsSlice(mem: seq<bv8>, a: nat, n: nat)
    ensures TxStream(mem, a, n).Some? <==> Serve(mem, ReadReq(a, n)).Some?
    ensures TxStream(mem, a, n).Some? ==>
      Serve(mem, ReadReq(a, n)).value.out == TxStream(mem, a, n).value
  {
    if n > 0 && a + n <= |mem| {
      assert TxStream(mem, a, n).value == mem[a..a + n];
    }
  }

  /** The rx channel's byte-by-byte stores, followed by the drain, are the
      chip's write of the low bytes: served exactly when the chip's write
      fits, and then with the same memory. */
  lemma WriteRunIsSplice(mem: seq<bv8>, a: nat, ws: seq<bv32>)
    requires |mem| == RamSize
    ensures var rx := RxTransfers(mem, a, ws, TransferCount);
      (rx.Some? && rx.value.1 == []) <==> Serve(mem, WriteReq(a, LowBytes(ws))).Some?
    ensures var rx := RxTransfers(mem, a, ws, TransferCount);
      rx.Some? && rx.value.1 == [] ==> Serve(mem, WriteReq(a, LowBytes(ws))).value.mem == rx.value.0
  {
    var d := LowBytes(ws);
    var rx := RxTransfers(mem, a, ws, TransferCount);
    if |ws| > 0 && a + |ws| <= |mem| {
      var m := mem[..a] + d + mem[a + |d|..];
      assert |m| == |rx.value.0|;
      forall i | 0 <= i < |m|
        ensures m[i] == rx.value.0[i]
      {
        if i < a {
        } else if i < a + |d| {
          assert m[i] == d[i - a];
        } else {
          assert m[i] == mem[i];
        }
      }
    }
  }

  /** The reference chip over a sequence of transactions: each request in
      turn, from the memory the previous one left, with the reply of each;
      None once a transaction carries no whole request or the chip cannot
      serve it. */
  function ChipRun(cfg: Config, mem: seq<bv8>, ts: seq<Transaction>)
    : Option<(seq<bv8>, seq<seq<bv8>>)>
    requires ValidConfig(cfg)
    decreases |ts|
  {
    if |ts| == 0 then Some((mem, []))
    else match Requested(cfg, ts[0])
      case None => None
      case Some(q) =>
        match Serve(mem, q)
        case None => None
        case Some(reply) =>
          match ChipRun(cfg, reply.mem, ts[1..])
          case None => None
          case Some((last, outs)) => Some((last, [reply.out] + outs))
  }

  /** A whole run of the dispatcher from the clean top of the loop, with no
      READ stranding tx2, is the reference chip run over the same requests:
      the same final emu_ram and the same reply for every transaction. */
  lemma {:induction false} RunRefinesChip(cfg: Config, e: Emu, ts: seq<Transaction>)
    requires ValidConfig(cfg) && Ready(cfg, e)
    requires forall i :: 0 <= i < |ts| ==> !StrandsHandOff(cfg, ts[i])
    ensures Run(cfg, e, ts).Some? ==>
      ChipRun(cfg, e.mem, ts) == Some((Run(cfg, e, ts).value.0.mem, Run(cfg, e, ts).value.1))
    decreases |ts|
  {
    if |ts| > 0 && Run(cfg, e, ts).Some? {
      var s := Step(cfg, e, ts[0]);
      assert s.Served?;
      StepServesRequest(cfg, e, ts[0]);
      var q := Requested(cfg, ts[0]).value;
      assert Serve(e.mem, q) == Some(Reply(s.next.mem, s.miso));
      assert Ready(cfg, s.next);
      var rest := Run(cfg, s.next, ts[1..]);
      assert Run(cfg, e, ts) == Prepend(s.miso, rest);
      assert forall i :: 0 <= i < |ts[1..]| ==> !StrandsHandOff(cfg, ts[1..][i]) by {
        forall i | 0 <= i < |ts[1..]|
          ensures !StrandsHandOff(cfg, ts[1..][i])
        {
          assert ts[1..][i] == ts[i + 1];
        }
      }
      RunRefinesChip(cfg, s.next, ts[1..]);
    }
  }
}

=== FILE: registers.dfy ===
/** The three write-side settings FAST_READ rewrites for the duration of one
    transaction, and the bit-field arithmetic of that rewrite and its revert.
    Field positions are those of the RP2040 register headers:
    DMA_CH0_CTRL_TRIG_DATA_SIZE (bits 3:2, the same in every channel, so the
    CH10 name used by the revert means the same field) and
    PIO_SM0_SHIFTCTRL_PULL_THRESH (bits 29:25, 0 meaning 32). */
module Registers {
  import opened Pio

  /** DMA_CH0_CTRL_TRIG_DATA_SIZE_BITS; the field's LSB is bit 2. */
  const DataSizeBits: bv32 := 0x0000_000C
  /** DMA_SIZE_8 and DMA_SIZE_32. */
  const DmaSize8: bv32 := 0
  const DmaSize32: bv32 := 2
  /** The 32-bit size code shifted to the DATA_SIZE position: the value the
      revert ORs in. */
  const DataSize32Field: bv32 := 0x0000_0008

  /** PIO_SM0_SHIFTCTRL_PULL_THRESH_BITS; the field's LSB is bit 25. */
  const PullThreshBits: bv32 := 0x3E00_0000
  /** A threshold of 8 shifted to the PULL_THRESH position: the value the
      patch ORs in. */
  const PullEightField: bv32 := 0x1000_0000

  function DataSize(ctrl: bv32): bv32
  {
    (ctrl & DataSizeBits) >> 2
  }

  function PullThresh(shiftCtrl: bv32): bv32
  {
    (shiftCtrl & PullThreshBits) >> 25
  }

  /** hw_set_bits / hw_clear_bits, on the value held by the register. */
  function SetBits(reg: bv32, mask: bv32): bv32
  {
    reg | mask
  }

  function ClearBits(reg: bv32, mask: bv32): bv32
  {
    reg & !mask
  }

  /** channel_config_set_transfer_data_size(&c, DMA_SIZE_32) on the tx
      channel's default control word: the field becomes 32-bit whatever it
      held, and nothing else changes. */
  function SetTransferSize32(ctrl: bv32): (r: bv32)
    ensures DataSize(r) == DmaSize32
    ensures r & !DataSizeBits == ctrl & !DataSizeBits
  {
    (ctrl & !DataSizeBits) | DataSize32Field
  }

  /** Fast-read patch of the tx channel: clear DATA_SIZE, selecting 8-bit
      transfers, and touch nothing else. */
  function NarrowTx(ctrl: bv32): (r: bv32)
    ensures DataSize(r) == DmaSize8
    ensures r & !DataSizeBits == ctrl & !DataSizeBits
  {
    ClearBits(ctrl, DataSizeBits)
  }

  /** Its revert: OR DMA_SIZE_32 into the field. The field ends up 32-bit only
      when its old value had no bit outside DMA_SIZE_32 set, that is when it was 0
      or 2; nothing else changes. */
  function WidenTx(ctrl: bv32): (r: bv32)
    ensures DataSize(r) == DataSize(ctrl) | DmaSize32
    ensures r & !DataSizeBits == ctrl & !DataSizeBits
  {
    SetBits(ctrl, DataSize32Field)
  }

  /** Fast-read patch of SHIFTCTRL: OR 8 into PULL_THRESH, touching nothing
      else. */
  function PullEight(shiftCtrl: bv32): (r: bv32)
    ensures PullThresh(r) == PullThresh(shiftCtrl) | 8
    ensures r & !PullThreshBits == shiftCtrl & !PullThreshBits
  {
    SetBits(shiftCtrl, PullEightField)
  }

  /** Its revert: clear PULL_THRESH back to 0 (a 32-bit threshold). */
  function PullDefault(shiftCtrl: bv32): (r: bv32)
    ensures PullThresh(r) == 0
    ensures r & !PullThreshBits == shiftCtrl & !PullThreshBits
  {
    ClearBits(shiftCtrl, PullThreshBits)
  }

  /** Clear-then-set gives back the original control word exactly when its
      DATA_SIZE field was 32-bit. */
  lemma DataSizeRoundTrip(ctrl: bv32)
    ensures WidenTx(NarrowTx(ctrl)) == ctrl <==> DataSize(ctrl) == DmaSize32
  {
  }

  /** Set-then-clear gives back the original SHIFTCTRL word exactly when its
      pull threshold field was 0. */
  lemma PullThreshRoundTrip(shiftCtrl: bv32)
    ensures PullDefault(PullEight(shiftCtrl)) == shiftCtrl <==> PullThresh(shiftCtrl) == 0
  {
  }

  /** The patch yields an 8-bit pull threshold exactly when the field held 0
      or already 8. */
  lemma PatchedThresholdIsEight(shiftCtrl: bv32)
    ensures PullThresh(PullEight(shiftCtrl)) == 8 <==> PullThresh(shiftCtrl) in {0, 8}
  {
  }

  /** Labels of the assembled write program: the address-loop end, the
      `addr_two` target it normally jumps to on the pin, and the fast-read
      delay slot. */
  datatype Labels = Labels(loopEnd: nat, addrTwo: nat, fastRead: nat)

  /** The write PIO's instruction memory, the tx channel's control word and
      the write state machine's SHIFTCTRL word. */
  datatype WriteSide = WriteSide(instr: seq<Instr>, txCtrl: bv32, shiftCtrl: bv32)

  /** The settings every non-fast-read transaction runs with: the loop end
      jumps on the pin to `addr_two`, the tx channel moves 32-bit words, and
      the write state machine pulls 32 bits at a time. */
  predicate Configured(side: WriteSide, labels: Labels)
  {
    && |side.instr| == InstrSlots
    && labels.loopEnd < InstrSlots
    && side.instr[labels.loopEnd] == JmpPin(labels.addrTwo)
    && DataSize(side.txCtrl) == DmaSize32
    && PullThresh(side.shiftCtrl) == 0
  }

  /** The three writes at the start of the FAST_READ branch. Afterwards the
      loop end jumps to the fast-read slot, the tx channel moves single bytes,
      and the pull threshold has bit 3 set; no other instruction changes. */
  function FastReadPatch(side: WriteSide, labels: Labels): (r: WriteSide)
    requires labels.loopEnd < |side.instr|
    ensures |r.instr| == |side.instr| && r.instr[labels.loopEnd] == Jmp(labels.fastRead)
    ensures forall k :: 0 <= k < |side.instr| && k != labels.loopEnd ==> r.instr[k] == side.instr[k]
    ensures DataSize(r.txCtrl) == DmaSize8
    ensures Configured(side, labels) ==> PullThresh(r.shiftCtrl) == 8
  {
    PatchedThresholdIsEight(side.shiftCtrl);
    WriteSide(Poke(side.instr, labels.loopEnd, Jmp(labels.fastRead)),
              NarrowTx(side.txCtrl),
              PullEight(side.shiftCtrl))
  }

  /** The three writes after deselect in the FAST_READ branch. From the
      patched settings (DATA_SIZE 8-bit) the result is configured again; the
      loop end and the pull threshold are restored from any settings. */
  function FastReadUnpatch(side: WriteSide, labels: Labels): (r: WriteSide)
    requires |side.instr| == InstrSlots && labels.loopEnd < InstrSlots
    ensures DataSize(side.txCtrl) == DmaSize8 ==> Configured(r, labels)
    ensures |r.instr| == InstrSlots && r.instr[labels.loopEnd] == JmpPin(labels.addrTwo)
        && PullThresh(r.shiftCtrl) == 0
  {
    WriteSide(Poke(side.instr, labels.loopEnd, JmpPin(labels.addrTwo)),
              WidenTx(side.txCtrl),
              PullDefault(side.shiftCtrl))
  }

  /** Patch then revert restores the write side exactly when it was
      configured to begin with; from any other state the revert does not
      give it back. */
  lemma {:induction false} FastReadRoundTrip(side: WriteSide, labels: Labels)
    requires |side.instr| == InstrSlots && labels.loopEnd < InstrSlots
    ensures FastReadUnpatch(FastReadPatch(side, labels), labels) == side <==>
      Configured(side, labels)
  {
    var p := FastReadPatch(side, labels);
    var u := FastReadUnpatch(p, labels);
    DataSizeRoundTrip(side.txCtrl);
    PullThreshRoundTrip(side.shiftCtrl);
    if Configured(side, labels) {
      assert u.instr == side.instr;
    }
  }
}

=== FILE: sram_chip.dfy ===
/** What an SPI SRAM chip does, independent of how the emulator gets there: a
    read returns successive bytes from an address, a write stores successive
    bytes at an address, anything else does nothing. This is the reference the
    dispatchers are proved against. */
module SramChip {
  import opened Base

  datatype Request =
    | ReadReq(addr: nat, len: nat)
    | WriteReq(addr: nat, data: seq<bv8>)
    | NoOp

  /** The memory after the request and the bytes driven back to the master. */
  datatype Reply = Reply(mem: seq<bv8>, out: seq<bv8>)

  /** None when the request runs off the end of the array; an empty request
      touches nothing, wherever it points. */
  function Serve(mem: seq<bv8>, req: Request): Option<Reply>
  {
    match req
    case ReadReq(a, n) =>
      if n == 0 then Some(Reply(mem, []))
      else if a + n <= |mem| then Some(Reply(mem, mem[a..a + n]))
      else None
    case WriteReq(a, d) =>
      if |d| == 0 then Some(Reply(mem, []))
      else if a + |d| <= |mem| then Some(Reply(mem[..a] + d + mem[a + |d|..], []))
      else None
    case NoOp => Some(Reply(mem, []))
  }

  /** A write stores its bytes at addr, addr + 1, ... and leaves every other
      byte and the size of the array alone. */
  lemma WriteStoresRun(mem: seq<bv8>, a: nat, d: seq<bv8>)
    requires a + |d| <= |mem|
    ensures Serve(mem, WriteReq(a, d)).Some?
    ensures var m := Serve(mem, WriteReq(a, d)).value.mem;
      && |m| == |mem|
      && (forall i :: 0 <= i < |d| ==> m[a + i] == d[i])
      && (forall i :: 0 <= i < |mem| && !(a <= i < a + |d|) ==> m[i] == mem[i])
  {
  }

  /** Round trip: reading back what was just written returns the data. */
  lemma WriteThenRead(mem: seq<bv8>, a: nat, d: seq<bv8>)
    requires a + |d| <= |mem|
    ensures var w := Serve(mem, WriteReq(a, d));
      w.Some? && Serve(w.value.mem, ReadReq(a, |d|)) == Some(Reply(w.value.mem, d))
  {
    if |d| > 0 {
      var m := mem[..a] + d + mem[a + |d|..];
      assert m[a..a + |d|] == d;
    }
  }
}

=== FILE: stranded_hand_off.dfy ===
/** A READ deselected before its address word leaves tx2 armed: sram.c starts
    tx2, waits for chip-select and aborts only the tx channel. tx2 then takes
    the first word of the next transaction, so the dispatcher decodes that
    transaction from its second word. The corrected build aborts tx2 too and
    returns to the clean top of the loop. */
module StrandedHandOff {
  import opened Base
  import opened ChipSelect
  import opened Opcodes
  import opened Dma
  import opened Bus
  import opened Dispatcher

  /** While tx2 is waiting, a transaction is dispatched as if its first word
      had never been sent, with the tx channel restarted at that word. */
  lemma {:induction false} WaitingHandOffTakesFirstWord(cfg: Config, e: Emu, t: Transaction)
    requires ValidConfig(cfg) && LoopTop(cfg, e) && e.handOffStarted
    requires |t.words| > 0
    ensures Step(cfg, e, t) ==
      Step(cfg, e.(tx := Running(t.words[0]), handOffStarted := false), t.(words := t.words[1..]))
  {
    var fired := e.(tx := Running(t.words[0]), handOffStarted := false);
    var rest := t.(words := t.words[1..]);
    if |rest.words| > 0 {
      assert Step(cfg, fired, rest) == Dispatch(cfg, fired, rest, t.words[1..]);
      DispatchReadsOnlyTiming(cfg, fired, t, rest, t.words[1..]);
    }
  }

  /** Dispatch takes the words from its own argument; of the transaction it
      uses only the timing: read length, chip-select samples and residues. */
  lemma DispatchReadsOnlyTiming(cfg: Config, e: Emu, t: Transaction, u: Transaction,
      words: seq<bv32>)
    requires ValidConfig(cfg) && LoopTop(cfg, e) && !e.handOffStarted
    requires u == t.(words := u.words)
    ensures Dispatch(cfg, e, t, words) == Dispatch(cfg, e, u, words)
  {
  }

  /** From the clean top of the loop, a one-byte WRITE of AA at 0x0010 in the
      16-bit build stores AA there. */
  lemma {:induction false} CleanWriteStores(cfg: Config, e: Emu, t: Transaction)
    requires ValidConfig(cfg) && cfg.addrBits == DefaultAddrBits && Ready(cfg, e)
    requires t.words == [WriteCommand(DefaultAddrBits), 0x0000, 0x0010, 0xAA] && FilteredSeesRise(t)
    ensures Step(cfg, e, t).Served? && Step(cfg, e, t).next.mem[0x0010] == 0xAA
  {
    OpcodeValues();
    var popped := e.(readSm := e.readSm.(fifo := t.words[1..]));
    assert Step(cfg, e, t) == WriteBranch(cfg, popped, t);
    assert JoinAddress(0x0000, 0x0010) == 0x0010;
    assert Offset(0x0010) == 0x0010;
    assert popped.readSm.fifo[2..] == [0xAA];
    var rx := RxTransfers(e.mem, 0x0010, [0xAA], TransferCount);
    assert rx == Some((e.mem[0x0010 := LowByte(0xAA)], []));
  }

  /** As written: after a stranded READ, the same WRITE stores nothing. Its
      command word goes to tx2, the zero after it is decoded as an unknown
      command, and the iteration ends with emu_ram untouched and the tx
      channel running from the write opcode. */
  lemma {:induction false} StrandedReadLosesWrite(cfg: Config, e: Emu, t1: Transaction,
      t2: Transaction)
    requires ValidConfig(cfg) && cfg.addrBits == DefaultAddrBits && !cfg.abortsHandOff
    requires Ready(cfg, e)
    requires t1.words == [ReadCommand(DefaultAddrBits)] && FilteredSeesRise(t1)
    requires t2.words == [WriteCommand(DefaultAddrBits), 0x0000, 0x0010, 0xAA]
        && FilteredSeesRise(t2)
    ensures Step(cfg, e, t1).Served? && Step(cfg, e, t1).next.handOffStarted
    ensures var s := Step(cfg, Step(cfg, e, t1).next, t2);
      && s.Served?
      && s.next.mem == e.mem
      && s.next.tx == Running(WriteCommand(DefaultAddrBits))
  {
    OpcodeValues();
    var s1 := Step(cfg, e, t1);
    assert s1.Served? && s1.next == e.(handOffStarted := true);
    WaitingHandOffTakesFirstWord(cfg, s1.next, t2);
    var fired := e.(tx := Running(WriteCommand(DefaultAddrBits)));
    var rest := t2.(words := [0x0000, 0x0010, 0xAA]);
    assert Classify(cfg.addrBits, 0x0000) == Unknown;
    var s := Step(cfg, fired, rest);
    assert s.Served? && s.next.mem == e.mem && s.next.tx == fired.tx;
  }

  /** Corrected: with tx2 aborted after deselect, a READ deselected before
      its address leaves the emulator exactly as it found it, so the next
      transaction is served as from the clean top of the loop. */
  lemma {:induction false} AbortedHandOffRecovers(cfg: Config, e: Emu, t1: Transaction,
      t2: Transaction)
    requires ValidConfig(cfg) && cfg.abortsHandOff && Ready(cfg, e)
    requires |t1.words| == 1 && Classify(cfg.addrBits, t1.words[0]) == Read && FilteredSeesRise(t1)
    ensures Step(cfg, e, t1).Served? && Step(cfg, e, t1).next == e && Step(cfg, e, t1).miso == []
    ensures Step(cfg, Step(cfg, e, t1).next, t2) == Step(cfg, e, t2)
  {
    var popped := e.(readSm := e.readSm.(fifo := t1.words[1..]));
    assert |popped.readSm.fifo| == 0;
    assert Step(cfg, e, t1) == ReadBranch(cfg, popped, t1);
  }
}
